=== FILE: README.md ===
# Toothalie Dental backend: appointment-scheduling state

This project models the core of the Toothalie Dental clinic backend, a
Symfony application over a MySQL database. It covers the controller
actions that change the clinic's scheduling state:

- a dentist's weekly schedule slots;
- appointments, which patients cancel by a soft delete (`deleted_on`);
- the per-appointment history rows (`appointment_log`);
- reminders, at most one per appointment;
- the links between dentists and the services they offer;
- users.

The `user` entity's roles and association collections are modelled too.

The database is one class, `Db.Connection`. It holds:

- one `map<int, Row>` per table;
- an AUTO_INCREMENT counter per table whose inserts the model performs;
- the activity log, as an append-only sequence.

`Connection.Valid()` collects what the schema guarantees of every reachable
state:

- ids are positive and below their counter;
- `reminder.appointment_id`, `user.email` and `user.username` are unique;
- every history row names an existing appointment. This is the foreign key
  with ON DELETE CASCADE.

Every controller action is a method on a `Connection`. Each one:

- requires `Valid()` and keeps it;
- states its response: `Ok`, or a failure with the status code (400, 403,
  404, 409, 500) and message of the source;
- states the whole new state, as `old(conn.State())` with the changed tables
  replaced.

A failed request changes no table. It can still add an ERROR entry to the
activity log. One exception: `AdminReminder.CreateReminder`, refused by the
unique index on `appointment_id`, still uses up the AUTO_INCREMENT id InnoDB
handed out for the row. The authenticated caller's id, the clock
(`now`) and the result of `password_hash` are parameters.

The two transactional actions of the dentist settings page build their new
tables in locals and assign them at the end, which stands for the commit:

- the schedule reconciler (`EditSettings.Edit`);
- the service diff (`EditSettings.EditServices`).

Their loops are methods proved against specification functions:

- `ReconcileSlots` against `Reconcile`;
- `InsertLinks` against `AddLinks`;
- `DeleteLinks` against `DropLinks`.

Lemmas about those functions give what the reconciler promises:

- the three-way partition of the dentist's slots;
- no referenced slot is ever deleted;
- other dentists' slots stay untouched;
- each owned slot takes the last entry that names it;
- new slots are numbered in order;
- after `editServices`, the assigned set is exactly the requested one.

PHP semantics the handlers rely on are written out in module `Php`:

- truthiness of `!$x` and `empty($x)` (null, `""`, `"0"`, `0`, empty arrays);
- `trim`, `strtolower`, `array_unique` and `array_diff`.

Where the database itself refuses a statement, the handler's catch block
answers 500. The model has this `ServerError` path for two refusals only:

- a duplicate entry on a unique index;
- an UPDATE with an empty SET clause.

Every other refusal is listed under "Left out". This includes a value too
wide for its column, a TINYINT out of range and non-JSON text in a JSON
column. For those the model answers `Ok` where the source answers 500.

## Model

| member | source | states |
|---|---|---|
| Php.TrimStrips | backend/src/Controller/API/Authenticated/Dentist/EditSettings.php:96 | the result is the slice of the input between a run of trimmable characters at the front and one at the back, and has no trimmable character at either end |
| Php.TrimKeepsOrEmpties | backend/src/Controller/API/Authenticated/Dentist/EditSettings.php:96 | an input without trimmable characters is returned unchanged; one made only of them becomes empty |
| Php.Dedup | backend/src/Controller/API/Authenticated/Dentist/EditSettings.php:124 | `array_unique`: the result has no duplicates and holds exactly the input's elements |
| Php.DedupKeepsFirstOrder | backend/src/Controller/API/Authenticated/Dentist/EditSettings.php:124 | `array_unique` keeps first occurrences: the result lists the values in the order of their first appearance in the input |
| Php.Diff | backend/src/Controller/API/Authenticated/Dentist/EditSettings.php:242-243 | `array_diff`: x is in the result iff x is in a and not in b; duplicate-free input gives duplicate-free output |
| Php.DiffKeepsOrder | backend/src/Controller/API/Authenticated/Dentist/EditSettings.php:242-243 | `array_diff` keeps the order of `a`: the diff of a concatenation is the concatenation of the diffs |
| Php.DiffSingle | backend/src/Controller/API/Authenticated/Dentist/EditSettings.php:242-243 | on a one-element array, `array_diff` keeps that element iff `b` does not hold it |
| Db.FirstMissing | backend/src/Controller/API/Authenticated/Admin/Schedule.php:164-172 | the required-field loop: None iff every field is present; otherwise the first absent field in the listed order |
| EditSettings.ApplyShape | backend/src/Controller/API/Authenticated/Dentist/EditSettings.php:93-122 | the loop inserts one slot per id-less usable entry; the table then holds the old ids plus a contiguous block of fresh ones |
| EditSettings.ApplyOthers | backend/src/Controller/API/Authenticated/Dentist/EditSettings.php:102-111 | a slot outside the dentist's owned ids keeps its row through the loop |
| EditSettings.ApplyOwned | backend/src/Controller/API/Authenticated/Dentist/EditSettings.php:102-112 | an owned slot ends with the day and trimmed time of the last usable entry naming it, or unchanged |
| EditSettings.ApplyNew | backend/src/Controller/API/Authenticated/Dentist/EditSettings.php:113-120 | the k-th id-less usable entry becomes slot `next + k` of this dentist |
| EditSettings.ApplyProcessed | backend/src/Controller/API/Authenticated/Dentist/EditSettings.php:112-120 | `$processedIDs` holds exactly the revised owned ids and the inserted ids |
| EditSettings.ReconcileSlots | backend/src/Controller/API/Authenticated/Dentist/EditSettings.php:84-160 | the loop plus the guarded delete computes `Reconcile`: new table, counter, processed, deleted and not-deleted ids |
| EditSettings.ReconcilePartition | backend/src/Controller/API/Authenticated/Dentist/EditSettings.php:124-159 | owned ids = (processed ∩ owned) ∪ deleted ∪ not-deleted, pairwise disjoint; deleted = toDelete − referenced; not-deleted ⊆ toDelete; processed is duplicate-free |
| EditSettings.ReconcileKeepsReferenced | backend/src/Controller/API/Authenticated/Dentist/EditSettings.php:138-159 | no slot referenced by an appointment row (soft-deleted ones included) is deleted; not-deleted = omitted owned ids ∩ referenced |
| EditSettings.ReconcileLeavesOthers | backend/src/Controller/API/Authenticated/Dentist/EditSettings.php:85-89 | slots of other dentists are neither rewritten nor deleted |
| EditSettings.ReconcileOwned | backend/src/Controller/API/Authenticated/Dentist/EditSettings.php:93-159 | each owned slot is rewritten by its last naming entry, kept unchanged because referenced, or deleted, exactly one of these |
| EditSettings.ReconcileInserts | backend/src/Controller/API/Authenticated/Dentist/EditSettings.php:113-121 | the counter advances by the number of new entries; the table's ids are the surviving old ones plus the fresh block; each new slot has its entry's day, time and this dentist and is reported as processed |
| EditSettings.ReconcileEmptyList | backend/src/Controller/API/Authenticated/Dentist/EditSettings.php:127-157 | an empty list deletes every owned unreferenced slot, keeps and reports the referenced ones, inserts nothing |
| EditSettings.ReconcileValid | backend/src/Controller/API/Authenticated/Dentist/EditSettings.php:93-162 | the reconciled table keeps the schema invariants |
| EditSettings.Edit | backend/src/Controller/API/Authenticated/Dentist/EditSettings.php:21-187 | null list: 400; no dentist id: 400; unknown user: 404; no "dentist" role (lower-cased): 403, each with no write; otherwise commits `Reconcile`, logs SCHEDULE_UPDATED and returns the dentist, its roles and the three id lists |
| EditSettings.AssignsRequested | backend/src/Controller/API/Authenticated/Dentist/EditSettings.php:236-260 | after `editServices` a service is assigned to the dentist iff some payload item names it; an item without `service_id` names service 0 |
| EditSettings.AddLinksFacts | backend/src/Controller/API/Authenticated/Dentist/EditSettings.php:246-251 | the insert loop adds one row (user, id) per id under consecutive fresh ids and changes no existing row |
| EditSettings.DropLinksTwice | backend/src/Controller/API/Authenticated/Dentist/EditSettings.php:254-259 | deleting the rows of two id sets one after the other is deleting those of their union |
| EditSettings.ReassignCovers | backend/src/Controller/API/Authenticated/Dentist/EditSettings.php:228-259 | every requested service is assigned afterwards |
| EditSettings.ReassignOnlyWanted | backend/src/Controller/API/Authenticated/Dentist/EditSettings.php:228-259 | every service assigned afterwards was requested |
| EditSettings.ReassignExact | backend/src/Controller/API/Authenticated/Dentist/EditSettings.php:228-259 | after the diff the dentist's service set equals the requested set |
| EditSettings.ReassignFrame | backend/src/Controller/API/Authenticated/Dentist/EditSettings.php:242-259 | rows of other users and rows of services in both sets are untouched; new rows carry only added services |
| EditSettings.InsertLinks | backend/src/Controller/API/Authenticated/Dentist/EditSettings.php:246-251 | the insert loop computes `AddLinks` |
| EditSettings.DeleteLinks | backend/src/Controller/API/Authenticated/Dentist/EditSettings.php:254-259 | the delete loop computes `DropLinks` |
| EditSettings.EditServices | backend/src/Controller/API/Authenticated/Dentist/EditSettings.php:212-283 | no payload: 400 and no write; otherwise toInsert = new − existing and toDelete = existing − new are applied together, SERVICES_UPDATED is logged and the diff is returned |
| SubmitAppointment.RevisedSlotBookable | backend/src/Controller/API/Authenticated/Patient/SubmitAppointment.php:55-58 | a slot the dentist settings page revised is found by the booking query with the day and trimmed time stored for it |
| SubmitAppointment.NewSlotBookable | backend/src/Controller/API/Authenticated/Patient/SubmitAppointment.php:55-58 | a slot the dentist settings page inserted is found by the booking query with the day and trimmed time of the entry that created it |
| SubmitAppointment.SnapshotMatchesRow | backend/src/Controller/API/Authenticated/Patient/SubmitAppointment.php:44-100 | the create snapshot equals the inserted values; the new row is Pending, not deleted, the caller's, on the matched slot; emergency is 1/0 and type 2/1 iff the flags are truthy |
| SubmitAppointment.AddAppointment | backend/src/Controller/API/Authenticated/Patient/SubmitAppointment.php:20-111 | missing dentistID/day/time: 400; no exact slot: 400, each with no write; otherwise one appointment on a matching slot plus one PATIENT/create history row, then RECORD_CREATED; no slot is created |
| PatientUpdateAppointment.ReviseChangesOnlyEditableColumns | backend/src/Controller/API/Authenticated/Patient/UpdateAppointment.php:28-64 | only schedule, date, emergency, type and message change; emergency is 1 iff `isEmergency` is non-empty and type 2 iff `isFamilyBooking` is; resubmitting changes nothing further |
| PatientUpdateAppointment.UpdateAppointment | backend/src/Controller/API/Authenticated/Patient/UpdateAppointment.php:20-94 | missing ids: 400; unknown appointment: 404, each with no write; otherwise the row is revised and one patient/update history row holds the row before and after |
| DentistReminder.UpsertStores | backend/src/Controller/API/Authenticated/Dentist/Reminder.php:33-57 | after the upsert the appointment holds exactly the new payload; an existing reminder keeps its id and `viewed`, otherwise one row is added; other appointments' reminders are unchanged; one reminder per appointment still holds |
| DentistReminder.UpsertLastWins | backend/src/Controller/API/Authenticated/Dentist/Reminder.php:33-57 | two saves equal one save of the second payload |
| DentistReminder.ApplyUpsert | backend/src/Controller/API/Authenticated/Dentist/Reminder.php:33-57 | writes `Upsert` to the connection and reports whether it inserted |
| DentistReminder.SaveReminder | backend/src/Controller/API/Authenticated/Dentist/Reminder.php:15-74 | falsy payload or appointmentID: 400 and no write; otherwise the upsert, logged as REMINDER_UPDATED or REMINDER_CREATED |
| DentistReminder.UpdateReminder | backend/src/Controller/API/Authenticated/Dentist/Reminder.php:142-197 | the same validation and upsert, answering "updated" or "created" |
| DentistReminder.GetReminder | backend/src/Controller/API/Authenticated/Dentist/Reminder.php:93-123 | falsy appointmentID: 400; otherwise the stored payload, or None when there is no reminder |
| DentistReminder.SaveThenGet | backend/src/Controller/API/Authenticated/Dentist/Reminder.php:15-123 | a save followed by a get returns the saved payload |
| DentistUpdateAppointment.WithStatusChangesOnlyStatus | backend/src/Controller/API/Authenticated/Dentist/UpdateAppointment.php:42-46 | only that appointment's status changes, to any string; slot references stay; a later change simply replaces it |
| DentistUpdateAppointment.GetAppointment | backend/src/Controller/API/Authenticated/Dentist/UpdateAppointment.php:15-60 | missing id or status: 400; unknown appointment: 404, each with no write; otherwise the status is set and the log records the old and new status |
| DeleteAppointmentApi.SoftDeleteHides | backend/src/Controller/API/Authenticated/Patient/DeleteAppointmentAPI.php:39-56 | the row stays with only `deleted_on` set; it leaves exactly its patient's `deleted_on IS NULL` listing; a repeat delete only refreshes the stamp |
| DeleteAppointmentApi.SoftDeleteKeepsScheduleRefs | backend/src/Controller/API/Authenticated/Patient/DeleteAppointmentAPI.php:51-56 | the set of referenced slots is unchanged by a soft delete |
| DeleteAppointmentApi.SoftDeletedSlotStaysBlocked | backend/src/Controller/API/Authenticated/Dentist/EditSettings.php:139-159 | after a soft delete the appointment's slot is never deleted by a reconciliation, and is reported as not deleted when omitted |
| DeleteAppointmentApi.DeleteAppointment | backend/src/Controller/API/Authenticated/Patient/DeleteAppointmentAPI.php:21-76 | missing id: 400; unknown id: 404, each with no write; otherwise the soft delete, RECORD_DELETED |
| AdminAppointment.CreatedRowDefaults | backend/src/Controller/API/Authenticated/Admin/Appointment.php:157-185 | emergency defaults to 0 and status to "pending"; supplied columns are stored; the type is set iff a truthy `service_id` names an existing service, and is then that service's type |
| AdminAppointment.CreateAppointment | backend/src/Controller/API/Authenticated/Admin/Appointment.php:137-197 | missing patient_id, dentist_id, schedule_id: 400 naming the first, no write; otherwise inserts the created row, RECORD_CREATED |
| AdminAppointment.PatchedOnlySupplied | backend/src/Controller/API/Authenticated/Admin/Appointment.php:233-254 | supplied columns take their value, the others keep theirs; an empty patch is the identity; a patch is idempotent |
| AdminAppointment.UpdateAppointment | backend/src/Controller/API/Authenticated/Admin/Appointment.php:215-265 | missing body id: 400; no non-null field: 400, each with no write; otherwise patches the row if present, RECORD_UPDATED |
| AdminAppointment.CascadeKeepsLogsLinked | backend/migrations/Version20260111054650.php:40 | the cascade removes exactly the deleted appointment's history rows and keeps every other row linked |
| AdminAppointment.DeleteAppointment | backend/src/Controller/API/Authenticated/Admin/Appointment.php:282-310 | unknown id: 404 and no write; otherwise removes exactly that row and its history rows, RECORD_DELETED |
| AdminSchedule.CreateSchedule | backend/src/Controller/API/Authenticated/Admin/Schedule.php:159-193 | day_of_week, time_slot, dentistID checked in order (empty refused, "0" and 0 accepted): 400 naming the field; otherwise inserts exactly those three, with no duplicate check |
| AdminSchedule.PatchedOnlySupplied | backend/src/Controller/API/Authenticated/Admin/Schedule.php:119-136 | supplied columns take their value, the others keep theirs; empty patch is the identity; idempotent |
| AdminSchedule.UpdateSchedule | backend/src/Controller/API/Authenticated/Admin/Schedule.php:114-147 | missing id: 400; no field: 500 from the empty SET, each with no write; otherwise patches the row if present, SCHEDULE_UPDATED |
| AdminSchedule.DeleteSchedule | backend/src/Controller/API/Authenticated/Admin/Schedule.php:64-101 | missing id: 400; unknown id: 404; otherwise removes exactly that slot, with no reference check |
| AdminReminder.GetOneReminder | backend/src/Controller/API/Authenticated/Admin/Reminder.php:41-58 | falsy id: 400; otherwise the row or None, with no write |
| AdminReminder.DeleteReminder | backend/src/Controller/API/Authenticated/Admin/Reminder.php:75-120 | missing id: 400; unknown id: 404; otherwise removes exactly that row, REMINDER_DELETED |
| AdminReminder.PatchKeepsOneReminder | backend/src/Controller/API/Authenticated/Admin/Reminder.php:151-165 | a patch that the unique index accepts keeps one reminder per appointment, the ids, and every other row |
| AdminReminder.PatchSeenByDentist | backend/src/Controller/API/Authenticated/Admin/Reminder.php:151-165 | after an admin sets `information`, the dentist's get for that appointment returns it |
| AdminReminder.UpdateReminder | backend/src/Controller/API/Authenticated/Admin/Reminder.php:140-198 | missing id: 400; no field or a clash on the unique index: 500 with an ERROR activity, no write; otherwise patches the row if present, REMINDER_UPDATED |
| AdminReminder.InsertKeepsOneReminder | backend/migrations/Version20260111054650.php:28 | an insert that the unique index accepts keeps one reminder per appointment |
| AdminReminder.CreateReminder | backend/src/Controller/API/Authenticated/Admin/Reminder.php:201-262 | empty information (except 0 and "0"): 400; a taken appointment: 500 with ERROR, no row written but the AUTO_INCREMENT id used up; otherwise inserts with `viewed` 0 by default, REMINDER_CREATED |
| AdminDentistService.CreateDentistService | backend/src/Controller/API/Authenticated/Admin/DentistService.php:163-215 | user_id then service_id required; unknown user, then unknown service: 400, each with no write; otherwise one new (user, service) row, with no duplicate check |
| AdminDentistService.CreateAssigns | backend/src/Controller/API/Authenticated/Admin/DentistService.php:197-202 | the new link adds its service to that user's assigned set and changes no other user's |
| AdminDentistService.PatchedOnlySupplied | backend/src/Controller/API/Authenticated/Admin/DentistService.php:124-140 | supplied columns take their value, the other keeps its own; empty patch is the identity; idempotent |
| AdminDentistService.UpdateDentistService | backend/src/Controller/API/Authenticated/Admin/DentistService.php:119-151 | missing id: 400; no field: 500, each with no write; otherwise patches the row if present, DENTIST_SERVICE_UPDATED |
| AdminDentistService.DeleteDentistService | backend/src/Controller/API/Authenticated/Admin/DentistService.php:70-107 | missing id: 400; unknown id: 404; otherwise removes exactly that row |
| AdminDentistService.DeleteUnassigns | backend/src/Controller/API/Authenticated/Admin/DentistService.php:84-96 | the service stays assigned iff a duplicate link remains; the assigned set loses at most that service |
| AdminAppUser.WriteKeepsLoginsUnique | backend/migrations/Version20260111054650.php:33 | writing a user row keeps e-mails and usernames unique iff no other user holds the row's e-mail or username |
| AdminAppUser.CreateUser | backend/src/Controller/API/Authenticated/Admin/AppUser.php:166-235 | six required fields in order: 400 naming the first; e-mail taken, then username taken: 409, each with no write; otherwise inserts the hashed password with `disable` 0 by default, USER_CREATED |
| AdminAppUser.RevisedResetsRolesAndDisable | backend/src/Controller/API/Authenticated/Admin/AppUser.php:125-143 | roles and disable are always written, with defaults `["ROLE_USER"]` and 0; the password changes iff a non-empty one is given; absent e-mail and username stay |
| AdminAppUser.UpdateUser | backend/src/Controller/API/Authenticated/Admin/AppUser.php:110-154 | missing id: 400; a unique-index clash: 500, each with no write; otherwise revises the row if present, USER_UPDATED |
| AdminAppUser.DeleteUserHard | backend/src/Controller/API/Authenticated/Admin/AppUser.php:58-97 | missing id: 400; unknown id: 404; otherwise removes the row |
| AdminAppUser.DeleteFreesLogins | backend/src/Controller/API/Authenticated/Admin/AppUser.php:183-206 | after a delete the user's e-mail and username pass the create checks again |
| UserEntity.RemoveFirst | backend/src/Entity/User.php:180 | `removeElement` drops one occurrence if present, keeps every other element and keeps a duplicate-free list duplicate-free |
| UserEntity.RemoveFirstCutsFirst | backend/src/Entity/User.php:180 | the occurrence removed is the first one, and the other elements keep their order |
| UserEntity.User.constructor | backend/src/Entity/User.php:57-61 | a new user has every column null, no stored roles and two empty collections; its identifier and password read as "" and its roles as just ROLE_USER |
| UserEntity.User.GetRoles | backend/src/Entity/User.php:97-102 | always contains ROLE_USER, every stored role and nothing else, without duplicates |
| UserEntity.User.SetRoles | backend/src/Entity/User.php:104-108 | only the roles change; `getRoles` then yields exactly the given roles plus ROLE_USER |
| UserEntity.User.SetPassword | backend/src/Entity/User.php:115-119 | only the password changes; `getPassword` then returns it |
| UserEntity.User.SetEmail | backend/src/Entity/User.php:75-79 | only the e-mail changes; `getUserIdentifier` then returns it |
| UserEntity.User.SetUsername | backend/src/Entity/User.php:86-90 | only the username changes |
| UserEntity.User.SetFirstName | backend/src/Entity/User.php:126-130 | only the first name changes |
| UserEntity.User.SetLastName | backend/src/Entity/User.php:137-141 | only the last name changes |
| UserEntity.User.SetCreatedAt | backend/src/Entity/User.php:148-152 | only the creation time changes |
| UserEntity.User.SetDisable | backend/src/Entity/User.php:222-227 | only the disable flag changes |
| UserEntity.User.AddUserRole | backend/src/Entity/User.php:168-176 | adds the role only when absent and then registers the user on the role; the collection stays duplicate-free |
| UserEntity.User.RemoveUserRole | backend/src/Entity/User.php:178-185 | removes the role if present and only then drops the user from the role |
| UserEntity.User.AddDentistService | backend/src/Entity/User.php:195-203 | adds the link only when absent and then points it at this user; stays duplicate-free |
| UserEntity.User.RemoveDentistService | backend/src/Entity/User.php:205-215 | removes the link if present and clears its user only when that user was this one |
| UserEntity.AddThenRemoveService | backend/src/Entity/User.php:195-215 | adding a fresh link and removing it restores the collection and leaves the link without a user |

## Left out

- HTTP decoding and encoding: requests arrive as typed values. A missing key and JSON null are both `None`. `Input` separates "" from a number only where the code tests for "". Values of the wrong JSON type are not modelled.
- Response bodies are reduced to the values the handlers compute. Where a handler echoes whole rows or selected columns, the model returns the row or patch.
- `json_encode`/`json_decode` of payloads and snapshots: payloads are an opaque `Json` value, and snapshots are the row values themselves.
- Clock and timezone (`new \DateTime()`, `date_default_timezone_set`): `now` is a parameter.
- Foreign keys: the model does not model MySQL refusing a write that breaks a foreign key. This covers:
  - deleting a schedule or user that rows still reference;
  - inserting or updating with ids that do not exist.

  Only the appointment-log cascade is modelled. The migration's reminder foreign key also targets `appointment (id)`, a column the appointment table does not have.
- MySQL collation: string comparisons in WHERE clauses and unique indexes are exact here, not case-insensitive.
- The driver's exception texts: a failing statement is `ServerError` with a fixed message (`Db.DuplicateEntry`, `Db.EmptySetClause`).
- Activity logger: only each entry's action tag and target are kept. The free-text message and the metadata array are not. `ActivityLogger::log` drops the metadata anyway.
- Catch blocks of the transactional actions (`Edit`, `editServices`): the rollback paths are not modelled. In the source they run when the database refuses a value, for example a slot wider than its column (see the column lines below). The model has no such refusal, so it always commits.
- Column types under MySQL strict mode are not checked. The model stores any string and any integer. In the source, these values make the statement fail and the catch block answer 500:
  - text longer than a VARCHAR column (`schedule.day_of_week` and `time_slot` 20; `appointment.user_set_date` and `status` 50, `message` 200; `user.email` 180, `username` 100, `first_name` and `last_name` 50);
  - an integer outside TINYINT's -128..127 (`appointment.emergency`, `reminder.viewed`, `user.disable`);
  - text that is not a JSON document in `user.roles`.
- EditSettings.Edit: commits a day or trimmed time longer than 20 characters. The source rolls the transaction back and answers 500.
- EditSettings.Edit: the dentist's role names are returned as a set of lower-cased names. The source returns a list with one entry per `user_role` row, and nothing makes those rows unique. A role held twice, or two names that lower-case alike, appear twice there and once here. The list's order, which the unordered SELECT leaves open, is not modelled either. The 403 test (`in_array("dentist", ...)`) is unaffected.
- EditSettings.EditServices: `removed` is returned as a set of service ids. The source returns `array_values(array_diff($existing, ...))`, with one entry per `dentist_service` row of the caller. A service linked twice, which `createDentistService` allows, is listed twice there and once here. The list's order, which the unordered SELECT leaves open, is not modelled either. The rows deleted are the same in both.
- AdminSchedule.CreateSchedule: answers `Ok` for a day or time slot longer than 20 characters; the source answers 500.
- AdminSchedule.UpdateSchedule: same, for the supplied day or time slot.
- AdminAppointment.CreateAppointment: answers `Ok` for a message over 200, a date or status over 50 characters, or an emergency flag outside TINYINT; the source answers 500.
- AdminAppointment.UpdateAppointment: same, for the supplied columns.
- SubmitAppointment.AddAppointment: answers `Ok` for a message over 200 or a date over 50 characters; the source answers 500.
- PatientUpdateAppointment.UpdateAppointment: same, for the revised message and date.
- DentistUpdateAppointment.GetAppointment: answers `Ok` for a status over 50 characters; the source answers 500.
- AdminReminder.CreateReminder: answers `Ok` for a `viewed` outside TINYINT; the source answers 500.
- AdminReminder.UpdateReminder: same, for a supplied `viewed`.
- AdminAppUser.CreateUser: answers `Ok` for roles text that is not a JSON document (`"ROLE_ADMIN"`, say), for a `disable` outside TINYINT, or for a name, e-mail or username wider than its column. The source's insert fails and the catch block answers 500 with the driver's message.
- AdminAppUser.UpdateUser: same, for the supplied roles, disable and text columns.
- `DeleteAppointmentAPI` catch block, which logs an ERROR: not reachable in the model.
- SubmitAppointment.AddAppointment: the two inserts are not atomic in the source. The model has no failure between them, so the state after a crash between the inserts is not modelled.
- SubmitAppointment.AddAppointment: when several slots match, the source takes whichever row MySQL returns first. The model picks any matching slot, and its ensures says only that the slot matches.
- AdminAppUser.CreateUser: does not state that the password is stored hashed rather than in plaintext. `password_hash` is salted and random, so its result is a parameter (`hashed`).
- AdminAppUser.UpdateUser: same; the new hash is the `hashed` parameter.
- AdminAppointment.UpdateAppointment: the route's `{id}` is not used by the source and is not a parameter.
- Admin updates (schedule, reminder, dentist service, user, appointment) issue the UPDATE without a lookup. An unknown id therefore changes nothing and still succeeds, which is what the model states.
- EditSettings.EditServices: `finalServices` is `$newServiceIds` straight from `array_unique`, without `array_values`. When the payload repeats a service id anywhere but in last place, the array's keys have gaps and `json_encode` sends a JSON object keyed by position rather than a list. The model returns the deduplicated ids as a sequence in first-occurrence order.
- UserEntity.User.GetRoles: PHP's `array_unique` keeps the original keys, so the array can have gaps in its keys. The model returns a sequence in first-occurrence order.
- `UserRole.php` and `DentistService.php` are not part of this model. Their `addUser`, `removeUser` and `setUser` are taken to be the usual add-if-absent, remove and assignment.
- `User::getId`, `eraseCredentials` and the plain getters of nullable columns: no logic to state.
- Concurrency between requests, authentication and sessions.
- The read-only listings are not modelled. Their `deleted_on IS NULL` filter is kept as `DeleteAppointmentApi.ActiveFor`.

=== FILE: admin_app_user.dfy ===
/**
 * The administrator's user endpoints (`/api/admin/create-user`,
 * `update-user`, `delete-user`). E-mail addresses and usernames are unique:
 * a create checks both first (409), an update relies on the table's unique
 * indexes (500).
 */
module AdminAppUser {
  import opened Php
  import opened Db

  /** The default `roles` JSON of an update that names none. */
  const DefaultRoles := "[\"ROLE_USER\"]"

  /** Some user other than `except` has that e-mail address. */
  predicate EmailTaken(users: map<int, UserRow>, email: string, except: Option<int>) {
    exists u :: u in users && Some(u) != except && users[u].email == email
  }

  /** Some user other than `except` has that username. */
  predicate UsernameTaken(users: map<int, UserRow>, username: string, except: Option<int>) {
    exists u :: u in users && Some(u) != except && users[u].username == username
  }

  /** Writing `row` under `id` keeps e-mail addresses and usernames unique
      exactly when no other user already holds the row's e-mail or username. */
  lemma WriteKeepsLoginsUnique(users: map<int, UserRow>, id: int, row: UserRow)
    requires UniqueLogins(users)
    ensures UniqueLogins(users[id := row]) <==>
      !EmailTaken(users, row.email, Some(id)) && !UsernameTaken(users, row.username, Some(id))
  {
    var after := users[id := row];
    if EmailTaken(users, row.email, Some(id)) {
      var u :| u in users && Some(u) != Some(id) && users[u].email == row.email;
      assert after[u].email == after[id].email;
    } else if UsernameTaken(users, row.username, Some(id)) {
      var u :| u in users && Some(u) != Some(id) && users[u].username == row.username;
      assert after[u].username == after[id].username;
    } else {
      forall u1, u2 | u1 in after && u2 in after && after[u1].email == after[u2].email
        ensures u1 == u2
      {
        if u1 != id && u2 != id {
          assert after[u1] == users[u1] && after[u2] == users[u2];
        }
      }
      forall u1, u2 | u1 in after && u2 in after && after[u1].username == after[u2].username
        ensures u1 == u2
      {
        if u1 != id && u2 != id {
          assert after[u1] == users[u1] && after[u2] == users[u2];
        }
      }
    }
  }

  /** The decoded body of a create request. */
  datatype NewUser = NewUser(
    firstName: Option<string>,
    lastName: Option<string>,
    email: Option<string>,
    username: Option<string>,
    password: Option<string>,
    roles: Option<string>,
    disable: Option<int>)

  /** The six fields `createUser` requires, each `!empty(...)`. */
  predicate Complete(req: NewUser) {
    OptStrTruthy(req.firstName) && OptStrTruthy(req.lastName) && OptStrTruthy(req.email) &&
    OptStrTruthy(req.username) && OptStrTruthy(req.password) && OptStrTruthy(req.roles)
  }

  /** The row `createUser` inserts; `hashed` is what `password_hash` returned
      for the submitted password. */
  function CreatedUser(req: NewUser, hashed: string, now: Timestamp): UserRow
    requires Complete(req)
  {
    UserRow(req.email.value, req.username.value, hashed, req.firstName, req.lastName, Some(now),
            req.roles.value, Some(req.disable.GetOr(0)))
  }

  /** `createUser`: required fields in order, e-mail then username must be
      free, insert, log. */
  method CreateUser(conn: Connection, now: Timestamp, hashed: string, req: NewUser) returns (res: Response<int>)
    requires conn.Valid()
    modifies conn
    ensures conn.Valid()
    ensures res.Fail? ==> conn.State() == old(conn.State()) && conn.activity == old(conn.activity)
    ensures !OptStrTruthy(req.firstName) ==> res == Fail(BadRequest(MissingField("first_name")))
    ensures OptStrTruthy(req.firstName) && !OptStrTruthy(req.lastName) ==>
      res == Fail(BadRequest(MissingField("last_name")))
    ensures OptStrTruthy(req.firstName) && OptStrTruthy(req.lastName) && !OptStrTruthy(req.email) ==>
      res == Fail(BadRequest(MissingField("email")))
    ensures OptStrTruthy(req.firstName) && OptStrTruthy(req.lastName) && OptStrTruthy(req.email) &&
            !OptStrTruthy(req.username) ==>
      res == Fail(BadRequest(MissingField("username")))
    ensures OptStrTruthy(req.firstName) && OptStrTruthy(req.lastName) && OptStrTruthy(req.email) &&
            OptStrTruthy(req.username) && !OptStrTruthy(req.password) ==>
      res == Fail(BadRequest(MissingField("password")))
    ensures OptStrTruthy(req.firstName) && OptStrTruthy(req.lastName) && OptStrTruthy(req.email) &&
            OptStrTruthy(req.username) && OptStrTruthy(req.password) && !OptStrTruthy(req.roles) ==>
      res == Fail(BadRequest(MissingField("roles")))
    ensures Complete(req) && EmailTaken(old(conn.users), req.email.value, None) ==>
      res == Fail(Conflict("Email already exists"))
    ensures Complete(req) && !EmailTaken(old(conn.users), req.email.value, None) &&
            UsernameTaken(old(conn.users), req.username.value, None) ==>
      res == Fail(Conflict("Username already exists"))
    ensures Complete(req) && !EmailTaken(old(conn.users), req.email.value, None) &&
            !UsernameTaken(old(conn.users), req.username.value, None) ==>
      var id := old(conn.nextUserId);
      && res == Ok(id)
      && id !in old(conn.users)
      && conn.State() == old(conn.State()).(users := old(conn.users)[id := CreatedUser(req, hashed, now)],
                                            nextUserId := id + 1)
      && conn.activity == old(conn.activity) + [Activity("USER_CREATED", Record(id))]
  {
    var names := ["first_name", "last_name", "email", "username", "password", "roles"];
    var present := [OptStrTruthy(req.firstName), OptStrTruthy(req.lastName), OptStrTruthy(req.email),
                    OptStrTruthy(req.username), OptStrTruthy(req.password), OptStrTruthy(req.roles)];
    var missing := FirstMissing(names, present);
    assert present[0] == OptStrTruthy(req.firstName) && present[1] == OptStrTruthy(req.lastName) &&
           present[2] == OptStrTruthy(req.email) && present[3] == OptStrTruthy(req.username) &&
           present[4] == OptStrTruthy(req.password) && present[5] == OptStrTruthy(req.roles);
    if missing.Some? {
      return Fail(BadRequest(MissingField(missing.value)));
    }
    if EmailTaken(conn.users, req.email.value, None) {
      return Fail(Conflict("Email already exists"));
    }
    if UsernameTaken(conn.users, req.username.value, None) {
      return Fail(Conflict("Username already exists"));
    }
    var id := conn.InsertUser(CreatedUser(req, hashed, now));
    conn.Log(Activity("USER_CREATED", Record(id)));
    res := Ok(id);
  }

  /** The decoded body of an update request (besides `userID`). */
  datatype UserChanges = UserChanges(
    firstName: Option<string>,
    lastName: Option<string>,
    email: Option<string>,
    username: Option<string>,
    roles: Option<string>,
    isDisabled: Option<int>,
    password: Option<string>)

  /** The row after `update('user', $updateData, ...)`: the names, e-mail
      and username change only when supplied, but `roles` and `disable` are
      always written (with their defaults when absent), and the password
      only when a non-empty one is supplied. */
  function Revised(row: UserRow, c: UserChanges, hashed: string): UserRow {
    row.(firstName := if c.firstName.Some? then c.firstName else row.firstName,
         lastName := if c.lastName.Some? then c.lastName else row.lastName,
         email := c.email.GetOr(row.email),
         username := c.username.GetOr(row.username),
         roles := c.roles.GetOr(DefaultRoles),
         disable := Some(c.isDisabled.GetOr(0)),
         password := if OptStrTruthy(c.password) then hashed else row.password)
  }

  /** An update that names only a user's first name still resets the roles
      to `["ROLE_USER"]` and re-enables the account; the creation time is
      never touched, and an empty password leaves the old hash in place. */
  lemma RevisedResetsRolesAndDisable(row: UserRow, c: UserChanges, hashed: string)
    ensures var after := Revised(row, c, hashed);
      && (c.roles.None? ==> after.roles == DefaultRoles)
      && (c.isDisabled.None? ==> after.disable == Some(0))
      && (c.roles.Some? ==> after.roles == c.roles.value)
      && (c.isDisabled.Some? ==> after.disable == c.isDisabled)
      && (!OptStrTruthy(c.password) ==> after.password == row.password)
      && (OptStrTruthy(c.password) ==> after.password == hashed)
      && (c.email.None? ==> after.email == row.email)
      && (c.username.None? ==> after.username == row.username)
      && after.createdAt == row.createdAt
  {
  }

  /** The update breaks a unique index: the user exists and another user
      already holds the new e-mail or username. */
  predicate UpdateClashes(users: map<int, UserRow>, id: int, c: UserChanges, hashed: string) {
    id in users &&
    var after := Revised(users[id], c, hashed);
    EmailTaken(users, after.email, Some(id)) || UsernameTaken(users, after.username, Some(id))
  }

  /** `updateUser`: no lookup, so an unknown id changes nothing and still
      succeeds. */
  method UpdateUser(conn: Connection, hashed: string, userId: Option<int>, c: UserChanges) returns (res: Response<int>)
    requires conn.Valid()
    modifies conn
    ensures conn.Valid()
    ensures res.Fail? ==> conn.State() == old(conn.State()) && conn.activity == old(conn.activity)
    ensures userId.None? ==> res == Fail(BadRequest("Missing user ID"))
    ensures userId.Some? && UpdateClashes(old(conn.users), userId.value, c, hashed) ==>
      res == Fail(ServerError(DuplicateEntry))
    ensures userId.Some? && !UpdateClashes(old(conn.users), userId.value, c, hashed) ==>
      var id := userId.value;
      && res == Ok(id)
      && conn.State() == old(conn.State()).(
           users := if id in old(conn.users) then old(conn.users)[id := Revised(old(conn.users)[id], c, hashed)]
                    else old(conn.users))
      && conn.activity == old(conn.activity) + [Activity("USER_UPDATED", Record(id))]
  {
    if userId.None? {
      return Fail(BadRequest("Missing user ID"));
    }
    var id := userId.value;
    if UpdateClashes(conn.users, id, c, hashed) {
      return Fail(ServerError(DuplicateEntry));
    }
    if id in conn.users {
      var row := Revised(conn.users[id], c, hashed);
      WriteKeepsLoginsUnique(conn.users, id, row);
      conn.users := conn.users[id := row];
    }
    conn.Log(Activity("USER_UPDATED", Record(id)));
    res := Ok(id);
  }

  /** `deleteUserHard`: look up, delete, log. */
  method DeleteUserHard(conn: Connection, userId: Option<int>) returns (res: Response<int>)
    requires conn.Valid()
    modifies conn
    ensures conn.Valid()
    ensures res.Fail? ==> conn.State() == old(conn.State()) && conn.activity == old(conn.activity)
    ensures userId.None? ==> res == Fail(BadRequest("Missing user ID"))
    ensures userId.Some? && userId.value !in old(conn.users) ==> res == Fail(NotFound("User not found"))
    ensures userId.Some? && userId.value in old(conn.users) ==>
      var id := userId.value;
      && res == Ok(id)
      && conn.State() == old(conn.State()).(users := old(conn.users) - {id})
      && conn.activity == old(conn.activity) + [Activity("USER_DELETED", Record(id))]
  {
    if userId.None? {
      return Fail(BadRequest("Missing user ID"));
    }
    var id := userId.value;
    if id !in conn.users {
      return Fail(NotFound("User not found"));
    }
    conn.users := conn.users - {id};
    conn.Log(Activity("USER_DELETED", Record(id)));
    res := Ok(id);
  }

  /** Deleting a user frees the e-mail address and username for a later
      create. */
  lemma DeleteFreesLogins(users: map<int, UserRow>, id: int)
    requires UniqueLogins(users) && id in users
    ensures !EmailTaken(users - {id}, users[id].email, None)
    ensures !UsernameTaken(users - {id}, users[id].username, None)
  {
  }
}

=== FILE: admin_appointment.dfy ===
/**
 * The administrator's appointment endpoints (`/api/admin/appointments`):
 * create with defaults, partial update of the supplied columns, and a hard
 * delete whose foreign key cascades to the appointment's history rows.
 */
module AdminAppointment {
  import opened Php
  import opened Db

  /** The decoded body of a create request. The three ids distinguish a
      missing key from an empty string, which is also refused. */
  datatype CreateRequest = CreateRequest(
    patientId: Input<int>,
    dentistId: Input<int>,
    scheduleId: Input<int>,
    emergency: Option<int>,
    userSetDate: Option<string>,
    status: Option<string>,
    message: Option<string>,
    serviceId: Option<int>)

  /** The appointment type copied from the chosen service: only for a truthy
      service id, and null when no such service exists. */
  function TypeOfService(services: map<int, ServiceRow>, serviceId: Option<int>): Option<int> {
    if OptIntTruthy(serviceId) && serviceId.value in services then Some(services[serviceId.value].serviceTypeId)
    else None
  }

  /** The row an admin create inserts once the three ids are present. */
  function CreatedRow(req: CreateRequest, services: map<int, ServiceRow>, now: Timestamp): AppointmentRow
    requires req.patientId.Given? && req.dentistId.Given? && req.scheduleId.Given?
  {
    AppointmentRow(now, Some(req.emergency.GetOr(0)), req.userSetDate, Some(req.status.GetOr("pending")),
                   req.message, None, req.patientId.value, req.dentistId.value, req.scheduleId.value,
                   TypeOfService(services, req.serviceId), req.serviceId)
  }

  /** The defaults of an admin create: emergency 0, status "pending", not
      deleted, booked now; every supplied column is stored as given; the
      type follows the service when there is one. */
  lemma CreatedRowDefaults(req: CreateRequest, services: map<int, ServiceRow>, now: Timestamp)
    requires req.patientId.Given? && req.dentistId.Given? && req.scheduleId.Given?
    ensures var row := CreatedRow(req, services, now);
      && row.appointmentDate == now && row.deletedOn.None?
      && (req.emergency.None? ==> row.emergency == Some(0))
      && (req.emergency.Some? ==> row.emergency == req.emergency)
      && (req.status.None? ==> row.status == Some("pending"))
      && (req.status.Some? ==> row.status == req.status)
      && row.userSetDate == req.userSetDate && row.message == req.message && row.serviceId == req.serviceId
      && row.patientId == req.patientId.value && row.dentistId == req.dentistId.value
      && row.scheduleId == req.scheduleId.value
      && (row.appointmentTypeId.Some? ==> row.serviceId.Some? && row.serviceId.value in services &&
                                          row.appointmentTypeId.value == services[row.serviceId.value].serviceTypeId)
      && (OptIntTruthy(req.serviceId) && req.serviceId.value in services ==>
            row.appointmentTypeId == Some(services[req.serviceId.value].serviceTypeId))
      && (!(OptIntTruthy(req.serviceId) && req.serviceId.value in services) ==> row.appointmentTypeId.None?)
  {
  }

  /** `createAppointment`: check the required ids in order, insert, log. */
  method CreateAppointment(conn: Connection, now: Timestamp, req: CreateRequest) returns (res: Response<int>)
    requires conn.Valid()
    modifies conn
    ensures conn.Valid()
    ensures res.Fail? ==> conn.State() == old(conn.State()) && conn.activity == old(conn.activity)
    ensures !req.patientId.Given? ==> res == Fail(BadRequest(MissingField("patient_id")))
    ensures req.patientId.Given? && !req.dentistId.Given? ==> res == Fail(BadRequest(MissingField("dentist_id")))
    ensures req.patientId.Given? && req.dentistId.Given? && !req.scheduleId.Given? ==>
      res == Fail(BadRequest(MissingField("schedule_id")))
    ensures req.patientId.Given? && req.dentistId.Given? && req.scheduleId.Given? ==>
      var id := old(conn.nextAppointmentId);
      && res == Ok(id)
      && id !in old(conn.appointments)
      && conn.State() == old(conn.State()).(
           appointments := old(conn.appointments)[id := CreatedRow(req, old(conn.services), now)],
           nextAppointmentId := id + 1)
      && conn.activity == old(conn.activity) + [Activity("RECORD_CREATED", Record(id))]
  {
    var names, present := ["patient_id", "dentist_id", "schedule_id"],
                          [req.patientId.Given?, req.dentistId.Given?, req.scheduleId.Given?];
    var missing := FirstMissing(names, present);
    assert present[0] == req.patientId.Given? && present[1] == req.dentistId.Given? && present[2] == req.scheduleId.Given?;
    if missing.Some? {
      return Fail(BadRequest(MissingField(missing.value)));
    }
    var row := CreatedRow(req, conn.services, now);
    var id := conn.InsertAppointment(row);
    conn.Log(Activity("RECORD_CREATED", Record(id)));
    res := Ok(id);
  }

  /** The columns of an update request that are set (not null). */
  datatype AppointmentPatch = AppointmentPatch(
    patientId: Option<int>,
    dentistId: Option<int>,
    scheduleId: Option<int>,
    emergency: Option<int>,
    userSetDate: Option<string>,
    status: Option<string>,
    message: Option<string>,
    serviceId: Option<int>)

  /** `empty($updateData)` after the nulls are filtered out. */
  predicate NoFields(p: AppointmentPatch) {
    p.patientId.None? && p.dentistId.None? && p.scheduleId.None? && p.emergency.None? &&
    p.userSetDate.None? && p.status.None? && p.message.None? && p.serviceId.None?
  }

  /** Replaces a nullable column only when the patch supplies a value. */
  function Override<T>(column: Option<T>, supplied: Option<T>): Option<T> {
    if supplied.Some? then supplied else column
  }

  /** The row after `update('appointment', $updateData, ...)`. */
  function Patched(row: AppointmentRow, p: AppointmentPatch): AppointmentRow {
    row.(patientId := p.patientId.GetOr(row.patientId),
         dentistId := p.dentistId.GetOr(row.dentistId),
         scheduleId := p.scheduleId.GetOr(row.scheduleId),
         emergency := Override(row.emergency, p.emergency),
         userSetDate := Override(row.userSetDate, p.userSetDate),
         status := Override(row.status, p.status),
         message := Override(row.message, p.message),
         serviceId := Override(row.serviceId, p.serviceId))
  }

  /** A supplied column takes its new value and every other column keeps its
      old one (the booking time, deletion mark and type are never touched);
      an empty patch is the identity, and applying a patch twice is applying
      it once. */
  lemma PatchedOnlySupplied(row: AppointmentRow, p: AppointmentPatch)
    ensures var after := Patched(row, p);
      && (p.patientId.Some? ==> after.patientId == p.patientId.value)
      && (p.patientId.None? ==> after.patientId == row.patientId)
      && (p.dentistId.Some? ==> after.dentistId == p.dentistId.value)
      && (p.dentistId.None? ==> after.dentistId == row.dentistId)
      && (p.scheduleId.Some? ==> after.scheduleId == p.scheduleId.value)
      && (p.scheduleId.None? ==> after.scheduleId == row.scheduleId)
      && (p.emergency.Some? ==> after.emergency == p.emergency)
      && (p.emergency.None? ==> after.emergency == row.emergency)
      && (p.userSetDate.Some? ==> after.userSetDate == p.userSetDate)
      && (p.userSetDate.None? ==> after.userSetDate == row.userSetDate)
      && (p.status.Some? ==> after.status == p.status)
      && (p.status.None? ==> after.status == row.status)
      && (p.message.Some? ==> after.message == p.message)
      && (p.message.None? ==> after.message == row.message)
      && (p.serviceId.Some? ==> after.serviceId == p.serviceId)
      && (p.serviceId.None? ==> after.serviceId == row.serviceId)
      && after.appointmentDate == row.appointmentDate && after.deletedOn == row.deletedOn
      && after.appointmentTypeId == row.appointmentTypeId
      && (NoFields(p) ==> after == row)
      && Patched(after, p) == after
  {
  }

  /** The table after the update: a missing id matches no row. */
  function PatchTable(appointments: map<int, AppointmentRow>, id: int, p: AppointmentPatch): map<int, AppointmentRow> {
    if id in appointments then appointments[id := Patched(appointments[id], p)] else appointments
  }

  /** `updateAppointment`: the id comes from the body (the route's `{id}` is
      not used); the update runs without checking that the row exists. */
  method UpdateAppointment(conn: Connection, appointmentId: Option<int>, p: AppointmentPatch) returns (res: Response<AppointmentPatch>)
    requires conn.Valid()
    modifies conn
    ensures conn.Valid()
    ensures res.Fail? ==> conn.State() == old(conn.State()) && conn.activity == old(conn.activity)
    ensures appointmentId.None? ==> res == Fail(BadRequest("Missing appointment ID"))
    ensures appointmentId.Some? && NoFields(p) ==> res == Fail(BadRequest("No valid fields to update"))
    ensures appointmentId.Some? && !NoFields(p) ==>
      var id := appointmentId.value;
      && res == Ok(p)
      && conn.State() == old(conn.State()).(appointments := PatchTable(old(conn.appointments), id, p))
      && conn.activity == old(conn.activity) + [Activity("RECORD_UPDATED", Record(id))]
  {
    if appointmentId.None? {
      return Fail(BadRequest("Missing appointment ID"));
    }
    var id := appointmentId.value;
    if NoFields(p) {
      return Fail(BadRequest("No valid fields to update"));
    }
    if id in conn.appointments {
      conn.appointments := conn.appointments[id := Patched(conn.appointments[id], p)];
    }
    conn.Log(Activity("RECORD_UPDATED", Record(id)));
    res := Ok(p);
  }

  /** The history table after its appointment is deleted (ON DELETE CASCADE). */
  function Cascade(logs: map<int, AppointmentLogRow>, appointment: int): map<int, AppointmentLogRow> {
    map l | l in logs && logs[l].appointmentId != Some(appointment) :: logs[l]
  }

  /** The cascade removes exactly the deleted appointment's history, leaves
      every other row as it was, and keeps every history row pointing at an
      existing appointment. */
  lemma CascadeKeepsLogsLinked(logs: map<int, AppointmentLogRow>, appointments: map<int, AppointmentRow>, id: int)
    requires LogsLinked(logs, appointments)
    ensures var after := Cascade(logs, id);
      && LogsLinked(after, appointments - {id})
      && (forall l :: l in after <==> l in logs && logs[l].appointmentId != Some(id))
      && (forall l :: l in after ==> after[l] == logs[l])
  {
  }

  /** `deleteAppointment`: look up, delete (the history rows go with it), log. */
  method DeleteAppointment(conn: Connection, id: int) returns (res: Response<int>)
    requires conn.Valid()
    modifies conn
    ensures conn.Valid()
    ensures res.Fail? ==> conn.State() == old(conn.State()) && conn.activity == old(conn.activity)
    ensures id !in old(conn.appointments) ==> res == Fail(NotFound("Appointment not found"))
    ensures id in old(conn.appointments) ==>
      && res == Ok(id)
      && conn.State() == old(conn.State()).(appointments := old(conn.appointments) - {id},
                                            appointmentLogs := Cascade(old(conn.appointmentLogs), id))
      && conn.activity == old(conn.activity) + [Activity("RECORD_DELETED", Record(id))]
  {
    if id !in conn.appointments {
      return Fail(NotFound("Appointment not found"));
    }
    CascadeKeepsLogsLinked(conn.appointmentLogs, conn.appointments, id);
    conn.appointments, conn.appointmentLogs := conn.appointments - {id}, Cascade(conn.appointmentLogs, id);
    conn.Log(Activity("RECORD_DELETED", Record(id)));
    res := Ok(id);
  }
}

=== FILE: admin_dentist_service.dfy ===
/**
 * The administrator's dentist-service link endpoints
 * (`/api/admin/create-dentist-service`, `update-dentist-service`,
 * `delete-dentist-service`). A create checks that both ends exist but not
 * that the link is new, so the same pair can be linked twice.
 */
module AdminDentistService {
  import opened Php
  import opened Db
  import EditSettings

  /** `createDentistService`: required fields, both ends exist, insert, log. */
  method CreateDentistService(conn: Connection, userId: Input<int>, serviceId: Input<int>) returns (res: Response<int>)
    requires conn.Valid()
    modifies conn
    ensures conn.Valid()
    ensures res.Fail? ==> conn.State() == old(conn.State()) && conn.activity == old(conn.activity)
    ensures !userId.Given? ==> res == Fail(BadRequest(MissingField("user_id")))
    ensures userId.Given? && !serviceId.Given? ==> res == Fail(BadRequest(MissingField("service_id")))
    ensures userId.Given? && serviceId.Given? && userId.value !in old(conn.users) ==>
      res == Fail(BadRequest("Invalid user_id, user does not exist"))
    ensures userId.Given? && serviceId.Given? && userId.value in old(conn.users) && serviceId.value !in old(conn.services) ==>
      res == Fail(BadRequest("Invalid service_id, service does not exist"))
    ensures userId.Given? && serviceId.Given? && userId.value in old(conn.users) && serviceId.value in old(conn.services) ==>
      var id := old(conn.nextDentistServiceId);
      && res == Ok(id)
      && id !in old(conn.dentistServices)
      && conn.State() == old(conn.State()).(
           dentistServices := old(conn.dentistServices)[id := DentistServiceRow(userId.value, serviceId.value)],
           nextDentistServiceId := id + 1)
      && conn.activity == old(conn.activity) + [Activity("DENTIST_SERVICE_CREATED", Record(id))]
  {
    var names, present := ["user_id", "service_id"], [userId.Given?, serviceId.Given?];
    var missing := FirstMissing(names, present);
    assert present[0] == userId.Given? && present[1] == serviceId.Given?;
    if missing.Some? {
      return Fail(BadRequest(MissingField(missing.value)));
    }
    // fetchOne returns the id, which AUTO_INCREMENT keeps truthy, or false
    if userId.value !in conn.users {
      return Fail(BadRequest("Invalid user_id, user does not exist"));
    }
    if serviceId.value !in conn.services {
      return Fail(BadRequest("Invalid service_id, service does not exist"));
    }
    var id := conn.InsertDentistService(DentistServiceRow(userId.value, serviceId.value));
    conn.Log(Activity("DENTIST_SERVICE_CREATED", Record(id)));
    res := Ok(id);
  }

  /** A new link adds its service to the user's assigned services (whether
      or not it was already there) and changes no other user's. */
  lemma CreateAssigns(rows: map<int, DentistServiceRow>, id: int, user: int, service: int)
    requires id !in rows
    ensures var after := rows[id := DentistServiceRow(user, service)];
      && EditSettings.AssignedServices(after, user) == EditSettings.AssignedServices(rows, user) + {service}
      && (forall other :: other != user ==>
            EditSettings.AssignedServices(after, other) == EditSettings.AssignedServices(rows, other))
  {
    var after := rows[id := DentistServiceRow(user, service)];
    assert after[id].serviceId == service;
    forall s | s in EditSettings.AssignedServices(rows, user)
      ensures s in EditSettings.AssignedServices(after, user)
    {
      var r :| r in rows && rows[r].userId == user && rows[r].serviceId == s;
      assert after[r] == rows[r];
    }
    forall other | other != user
      ensures EditSettings.AssignedServices(after, other) == EditSettings.AssignedServices(rows, other)
    {
      forall s | s in EditSettings.AssignedServices(rows, other)
        ensures s in EditSettings.AssignedServices(after, other)
      {
        var r :| r in rows && rows[r].userId == other && rows[r].serviceId == s;
        assert after[r] == rows[r];
      }
    }
  }

  /** The columns of an update request that are set (not null). */
  datatype LinkPatch = LinkPatch(userId: Option<int>, serviceId: Option<int>)

  predicate NoFields(p: LinkPatch) {
    p.userId.None? && p.serviceId.None?
  }

  /** The row after `update('dentist_service', $updateData, ...)`. */
  function Patched(row: DentistServiceRow, p: LinkPatch): DentistServiceRow {
    DentistServiceRow(p.userId.GetOr(row.userId), p.serviceId.GetOr(row.serviceId))
  }

  /** A supplied column takes its value, the other keeps its own; an empty
      patch is the identity and a patch is idempotent. */
  lemma PatchedOnlySupplied(row: DentistServiceRow, p: LinkPatch)
    ensures var after := Patched(row, p);
      && (p.userId.Some? ==> after.userId == p.userId.value)
      && (p.userId.None? ==> after.userId == row.userId)
      && (p.serviceId.Some? ==> after.serviceId == p.serviceId.value)
      && (p.serviceId.None? ==> after.serviceId == row.serviceId)
      && (NoFields(p) ==> after == row)
      && Patched(after, p) == after
  {
  }

  /** `updateDentistService`: no lookup, so an unknown id changes nothing
      and still succeeds; an empty column list makes the statement fail. */
  method UpdateDentistService(conn: Connection, linkId: Option<int>, p: LinkPatch) returns (res: Response<LinkPatch>)
    requires conn.Valid()
    modifies conn
    ensures conn.Valid()
    ensures res.Fail? ==> conn.State() == old(conn.State()) && conn.activity == old(conn.activity)
    ensures linkId.None? ==> res == Fail(BadRequest("Missing dentist service ID"))
    ensures linkId.Some? && NoFields(p) ==> res == Fail(ServerError(EmptySetClause))
    ensures linkId.Some? && !NoFields(p) ==>
      var id := linkId.value;
      && res == Ok(p)
      && conn.State() == old(conn.State()).(
           dentistServices := if id in old(conn.dentistServices)
                              then old(conn.dentistServices)[id := Patched(old(conn.dentistServices)[id], p)]
                              else old(conn.dentistServices))
      && conn.activity == old(conn.activity) + [Activity("DENTIST_SERVICE_UPDATED", Record(id))]
  {
    if linkId.None? {
      return Fail(BadRequest("Missing dentist service ID"));
    }
    var id := linkId.value;
    if NoFields(p) {
      return Fail(ServerError(EmptySetClause));
    }
    if id in conn.dentistServices {
      conn.dentistServices := conn.dentistServices[id := Patched(conn.dentistServices[id], p)];
    }
    conn.Log(Activity("DENTIST_SERVICE_UPDATED", Record(id)));
    res := Ok(p);
  }

  /** `deleteDentistService`: look up, delete, log. */
  method DeleteDentistService(conn: Connection, linkId: Option<int>) returns (res: Response<int>)
    requires conn.Valid()
    modifies conn
    ensures conn.Valid()
    ensures res.Fail? ==> conn.State() == old(conn.State()) && conn.activity == old(conn.activity)
    ensures linkId.None? ==> res == Fail(BadRequest("Missing dentist service ID"))
    ensures linkId.Some? && linkId.value !in old(conn.dentistServices) ==>
      res == Fail(NotFound("Dentist service not found"))
    ensures linkId.Some? && linkId.value in old(conn.dentistServices) ==>
      var id := linkId.value;
      && res == Ok(id)
      && conn.State() == old(conn.State()).(dentistServices := old(conn.dentistServices) - {id})
      && conn.activity == old(conn.activity) + [Activity("DENTIST_SERVICE_DELETED", Record(id))]
  {
    if linkId.None? {
      return Fail(BadRequest("Missing dentist service ID"));
    }
    var id := linkId.value;
    if id !in conn.dentistServices {
      return Fail(NotFound("Dentist service not found"));
    }
    conn.dentistServices := conn.dentistServices - {id};
    conn.Log(Activity("DENTIST_SERVICE_DELETED", Record(id)));
    res := Ok(id);
  }

  /** Deleting one link removes its service from the user's assigned set
      only when no other link of the same user carries it: duplicates left by
      repeated creates keep the service assigned. */
  lemma DeleteUnassigns(rows: map<int, DentistServiceRow>, id: int)
    requires id in rows
    ensures var user, service := rows[id].userId, rows[id].serviceId;
      var after := rows - {id};
      && (service in EditSettings.AssignedServices(after, user) <==>
            exists r :: r in rows && r != id && rows[r] == rows[id])
      && EditSettings.AssignedServices(after, user) + {service} == EditSettings.AssignedServices(rows, user)
  {
    var user, service := rows[id].userId, rows[id].serviceId;
    var after := rows - {id};
    if service in EditSettings.AssignedServices(after, user) {
      var r :| r in after && after[r].userId == user && after[r].serviceId == service;
      assert rows[r] == rows[id];
    }
    if r :| r in rows && r != id && rows[r] == rows[id] {
      assert after[r].serviceId == service;
    }
    assert rows[id].serviceId in EditSettings.AssignedServices(rows, user);
    forall s | s in EditSettings.AssignedServices(rows, user) && s != service
      ensures s in EditSettings.AssignedServices(after, user)
    {
      var r :| r in rows && rows[r].userId == user && rows[r].serviceId == s;
      assert after[r] == rows[r];
    }
  }
}

=== FILE: admin_reminder.dfy ===
/**
 * The administrator's reminder endpoints (`/api/admin/get-reminder`,
 * `delete-reminder`, `update-reminder`, `create-reminder`). Writes that
 * would give two reminders the same appointment are refused by the unique
 * index on `reminder.appointment_id`; the handlers' catch blocks then log
 * an `ERROR` activity and answer 500.
 */
module AdminReminder {
  import opened Php
  import opened Db
  import DentistReminder

  /** Some reminder other than `except` already holds appointment `a`. */
  predicate Taken(rows: map<int, ReminderRow>, a: int, except: Option<int>) {
    exists r :: r in rows && Some(r) != except && rows[r].appointmentId == Some(a)
  }

  /** `getOneReminder`: the row with that id, or None (`false`). */
  method GetOneReminder(conn: Connection, reminderId: Option<int>) returns (res: Response<Option<ReminderRow>>)
    requires conn.Valid()
    ensures !OptIntTruthy(reminderId) ==> res == Fail(BadRequest("Missing reminderID"))
    ensures OptIntTruthy(reminderId) && reminderId.value in conn.reminders ==>
      res == Ok(Some(conn.reminders[reminderId.value]))
    ensures OptIntTruthy(reminderId) && reminderId.value !in conn.reminders ==> res == Ok(None)
  {
    if !OptIntTruthy(reminderId) {
      return Fail(BadRequest("Missing reminderID"));
    }
    var id := reminderId.value;
    res := Ok(if id in conn.reminders then Some(conn.reminders[id]) else None);
  }

  /** `deleteReminder`: look up, hard delete, log. */
  method DeleteReminder(conn: Connection, reminderId: Option<int>) returns (res: Response<int>)
    requires conn.Valid()
    modifies conn
    ensures conn.Valid()
    ensures res.Fail? ==> conn.State() == old(conn.State()) && conn.activity == old(conn.activity)
    ensures reminderId.None? ==> res == Fail(BadRequest("Missing reminder ID"))
    ensures reminderId.Some? && reminderId.value !in old(conn.reminders) ==>
      res == Fail(NotFound("Reminder not found"))
    ensures reminderId.Some? && reminderId.value in old(conn.reminders) ==>
      var id := reminderId.value;
      && res == Ok(id)
      && conn.State() == old(conn.State()).(reminders := old(conn.reminders) - {id})
      && conn.activity == old(conn.activity) + [Activity("REMINDER_DELETED", Record(id))]
  {
    if reminderId.None? {
      return Fail(BadRequest("Missing reminder ID"));
    }
    var id := reminderId.value;
    if id !in conn.reminders {
      return Fail(NotFound("Reminder not found"));
    }
    conn.reminders := conn.reminders - {id};
    conn.Log(Activity("REMINDER_DELETED", Record(id)));
    res := Ok(id);
  }

  /** The columns of an update request that are set: `information` counts
      as unset when it is null (`isset`), the others when they are null. */
  datatype ReminderPatch = ReminderPatch(information: Json, appointmentId: Option<int>, viewed: Option<int>)

  predicate NoFields(p: ReminderPatch) {
    p.information == JNull && p.appointmentId.None? && p.viewed.None?
  }

  /** The row after `update('reminder', $updateData, ...)`. */
  function Patched(row: ReminderRow, p: ReminderPatch): ReminderRow {
    row.(information := if p.information == JNull then row.information else p.information,
         viewed := if p.viewed.Some? then p.viewed else row.viewed,
         appointmentId := if p.appointmentId.Some? then p.appointmentId else row.appointmentId)
  }

  /** The table after the update; an unknown id matches no row. */
  function PatchTable(rows: map<int, ReminderRow>, id: int, p: ReminderPatch): map<int, ReminderRow> {
    if id in rows then rows[id := Patched(rows[id], p)] else rows
  }

  /** The update breaks the unique index: the row exists and the new
      appointment id is held by another reminder. */
  predicate UpdateClashes(rows: map<int, ReminderRow>, id: int, p: ReminderPatch) {
    id in rows && p.appointmentId.Some? && Taken(rows, p.appointmentId.value, Some(id))
  }

  /** An update the unique index lets through keeps one reminder per
      appointment, keeps the table's ids, and touches no other row. */
  lemma PatchKeepsOneReminder(rows: map<int, ReminderRow>, id: int, p: ReminderPatch)
    requires OneReminderPerAppointment(rows)
    requires !UpdateClashes(rows, id, p)
    ensures var after := PatchTable(rows, id, p);
      && OneReminderPerAppointment(after)
      && after.Keys == rows.Keys
      && (forall r :: r in rows && r != id ==> after[r] == rows[r])
  {
    var after := PatchTable(rows, id, p);
    if id in rows {
      forall r1, r2 | r1 in after && r2 in after && r1 != r2 && after[r1].appointmentId.Some?
        ensures after[r1].appointmentId != after[r2].appointmentId
      {
        if r1 == id && p.appointmentId.Some? {
          assert !(rows[r2].appointmentId == p.appointmentId);
        } else if r2 == id && p.appointmentId.Some? {
          assert !(rows[r1].appointmentId == p.appointmentId);
        }
      }
    }
  }

  /** An administrator's new text reaches the dentist: after an update that
      sets `information` and leaves the appointment link alone, the dentist's
      `getReminder` for that appointment returns the new payload. */
  lemma PatchSeenByDentist(rows: map<int, ReminderRow>, id: int, p: ReminderPatch, a: int)
    requires OneReminderPerAppointment(rows)
    requires id in rows && rows[id].appointmentId == Some(a)
    requires p.information != JNull && p.appointmentId.None?
    ensures DentistReminder.Stored(PatchTable(rows, id, p), a) == Some(p.information)
  {
    var after := PatchTable(rows, id, p);
    assert after[id].appointmentId == Some(a);
    PatchKeepsOneReminder(rows, id, p);
    assert DentistReminder.HasReminder(after, a);
  }

  /** `updateReminder`. */
  method UpdateReminder(conn: Connection, reminderId: Option<int>, p: ReminderPatch) returns (res: Response<ReminderPatch>)
    requires conn.Valid()
    modifies conn
    ensures conn.Valid()
    ensures res.Fail? ==> conn.State() == old(conn.State())
    ensures reminderId.None? ==>
      res == Fail(BadRequest("Missing reminder ID")) && conn.activity == old(conn.activity)
    ensures reminderId.Some? && NoFields(p) ==>
      && res == Fail(ServerError(EmptySetClause))
      && conn.activity == old(conn.activity) + [Activity("ERROR", NoTarget)]
    ensures reminderId.Some? && !NoFields(p) && UpdateClashes(old(conn.reminders), reminderId.value, p) ==>
      && res == Fail(ServerError(DuplicateEntry))
      && conn.activity == old(conn.activity) + [Activity("ERROR", NoTarget)]
    ensures reminderId.Some? && !NoFields(p) && !UpdateClashes(old(conn.reminders), reminderId.value, p) ==>
      var id := reminderId.value;
      && res == Ok(p)
      && conn.State() == old(conn.State()).(reminders := PatchTable(old(conn.reminders), id, p))
      && conn.activity == old(conn.activity) + [Activity("REMINDER_UPDATED", Record(id))]
  {
    if reminderId.None? {
      return Fail(BadRequest("Missing reminder ID"));
    }
    var id := reminderId.value;
    if NoFields(p) {
      conn.Log(Activity("ERROR", NoTarget));
      return Fail(ServerError(EmptySetClause));
    }
    if UpdateClashes(conn.reminders, id, p) {
      conn.Log(Activity("ERROR", NoTarget));
      return Fail(ServerError(DuplicateEntry));
    }
    PatchKeepsOneReminder(conn.reminders, id, p);
    if id in conn.reminders {
      conn.reminders := conn.reminders[id := Patched(conn.reminders[id], p)];
    }
    conn.Log(Activity("REMINDER_UPDATED", Record(id)));
    res := Ok(p);
  }

  /** `empty($v) && $v !== 0 && $v !== '0'` on `information`: refused when
      it is falsy, except for the integer 0 and the string "0". */
  predicate Supplied(information: Json) {
    JsonTruthy(information) || information == JInt(0) || information == JStr("0")
  }

  /** The row `createReminder` inserts: `viewed` defaults to 0. */
  function NewReminder(information: Json, appointmentId: Option<int>, viewed: Option<int>): ReminderRow {
    ReminderRow(information, Some(viewed.GetOr(0)), appointmentId)
  }

  /** An insert the unique index lets through keeps one reminder per
      appointment. */
  lemma InsertKeepsOneReminder(rows: map<int, ReminderRow>, next: int, row: ReminderRow)
    requires OneReminderPerAppointment(rows) && next !in rows
    requires row.appointmentId.Some? ==> !Taken(rows, row.appointmentId.value, None)
    ensures OneReminderPerAppointment(rows[next := row])
  {
    var after := rows[next := row];
    forall r1, r2 | r1 in after && r2 in after && r1 != r2 && after[r1].appointmentId.Some?
      ensures after[r1].appointmentId != after[r2].appointmentId
    {
      if r1 == next {
        assert !(rows[r2].appointmentId == row.appointmentId);
      } else if r2 == next {
        assert !(rows[r1].appointmentId == row.appointmentId);
      }
    }
  }

  /** `createReminder`. */
  method CreateReminder(conn: Connection, information: Json, appointmentId: Option<int>, viewed: Option<int>)
    returns (res: Response<int>)
    requires conn.Valid()
    modifies conn
    ensures conn.Valid()
    ensures !Supplied(information) ==>
      && res == Fail(BadRequest(MissingField("information")))
      && conn.State() == old(conn.State())
      && conn.activity == old(conn.activity)
    ensures Supplied(information) && appointmentId.Some? && Taken(old(conn.reminders), appointmentId.value, None) ==>
      && res == Fail(ServerError(DuplicateEntry))
      && conn.State() == old(conn.State()).(nextReminderId := old(conn.nextReminderId) + 1)
      && conn.activity == old(conn.activity) + [Activity("ERROR", NoTarget)]
    ensures Supplied(information) && !(appointmentId.Some? && Taken(old(conn.reminders), appointmentId.value, None)) ==>
      var id := old(conn.nextReminderId);
      && res == Ok(id)
      && id !in old(conn.reminders)
      && conn.State() == old(conn.State()).(
           reminders := old(conn.reminders)[id := NewReminder(information, appointmentId, viewed)],
           nextReminderId := id + 1)
      && conn.activity == old(conn.activity) + [Activity("REMINDER_CREATED", Record(id))]
  {
    var names, present := ["information"], [Supplied(information)];
    var missing := FirstMissing(names, present);
    assert present[0] == Supplied(information);
    if missing.Some? {
      return Fail(BadRequest(MissingField(missing.value)));
    }
    if appointmentId.Some? && Taken(conn.reminders, appointmentId.value, None) {
      // InnoDB hands out the AUTO_INCREMENT value before the unique index
      // on appointment_id refuses the row, so that id is never used.
      conn.nextReminderId := conn.nextReminderId + 1;
      conn.Log(Activity("ERROR", NoTarget));
      return Fail(ServerError(DuplicateEntry));
    }
    var id := conn.InsertReminder(NewReminder(information, appointmentId, viewed));
    conn.Log(Activity("REMINDER_CREATED", Record(id)));
    res := Ok(id);
  }
}

=== FILE: admin_schedule.dfy ===
/**
 * The administrator's schedule endpoints (`/api/admin/create-schedule`,
 * `update-schedule`, `delete-schedule`). They do not check for duplicate
 * slots, and unlike the dentist's reconciliation they do not spare slots
 * that appointments reference.
 */
module AdminSchedule {
  import opened Php
  import opened Db

  /** `empty($v) && $v !== 0 && $v !== '0'` for a string field: only a
      missing key and the empty string are refused ("0" is accepted). */
  predicate Supplied(v: Option<string>) {
    v.Some? && v.value != ""
  }

  /** The same test for the integer `dentistID`: 0 is accepted. */
  predicate SuppliedId(v: Input<int>) {
    v.Given?
  }

  /** `createSchedule`: check the three fields in order, insert, log. */
  method CreateSchedule(conn: Connection, dayOfWeek: Option<string>, timeSlot: Option<string>, dentistId: Input<int>)
    returns (res: Response<int>)
    requires conn.Valid()
    modifies conn
    ensures conn.Valid()
    ensures res.Fail? ==> conn.State() == old(conn.State()) && conn.activity == old(conn.activity)
    ensures !Supplied(dayOfWeek) ==> res == Fail(BadRequest(MissingField("day_of_week")))
    ensures Supplied(dayOfWeek) && !Supplied(timeSlot) ==> res == Fail(BadRequest(MissingField("time_slot")))
    ensures Supplied(dayOfWeek) && Supplied(timeSlot) && !SuppliedId(dentistId) ==>
      res == Fail(BadRequest(MissingField("dentistID")))
    ensures Supplied(dayOfWeek) && Supplied(timeSlot) && SuppliedId(dentistId) ==>
      var id := old(conn.nextScheduleId);
      && res == Ok(id)
      && id !in old(conn.schedules)
      && conn.State() == old(conn.State()).(
           schedules := old(conn.schedules)[id := ScheduleRow(dayOfWeek.value, timeSlot.value, dentistId.value)],
           nextScheduleId := id + 1)
      && conn.activity == old(conn.activity) + [Activity("SCHEDULE_CREATED", Record(id))]
  {
    var names, present := ["day_of_week", "time_slot", "dentistID"],
                          [Supplied(dayOfWeek), Supplied(timeSlot), SuppliedId(dentistId)];
    var missing := FirstMissing(names, present);
    assert present[0] == Supplied(dayOfWeek) && present[1] == Supplied(timeSlot) && present[2] == SuppliedId(dentistId);
    if missing.Some? {
      return Fail(BadRequest(MissingField(missing.value)));
    }
    var id := conn.InsertSchedule(ScheduleRow(dayOfWeek.value, timeSlot.value, dentistId.value));
    conn.Log(Activity("SCHEDULE_CREATED", Record(id)));
    res := Ok(id);
  }

  /** The columns of an update request that are set (not null). */
  datatype SchedulePatch = SchedulePatch(dayOfWeek: Option<string>, timeSlot: Option<string>, dentistId: Option<int>)

  predicate NoFields(p: SchedulePatch) {
    p.dayOfWeek.None? && p.timeSlot.None? && p.dentistId.None?
  }

  /** The row after `update('schedule', $updateData, ...)`. */
  function Patched(row: ScheduleRow, p: SchedulePatch): ScheduleRow {
    ScheduleRow(p.dayOfWeek.GetOr(row.dayOfWeek), p.timeSlot.GetOr(row.timeSlot), p.dentistId.GetOr(row.dentistId))
  }

  /** A supplied column takes its value, the others keep theirs; an empty
      patch is the identity and a patch is idempotent. */
  lemma PatchedOnlySupplied(row: ScheduleRow, p: SchedulePatch)
    ensures var after := Patched(row, p);
      && (p.dayOfWeek.Some? ==> after.dayOfWeek == p.dayOfWeek.value)
      && (p.dayOfWeek.None? ==> after.dayOfWeek == row.dayOfWeek)
      && (p.timeSlot.Some? ==> after.timeSlot == p.timeSlot.value)
      && (p.timeSlot.None? ==> after.timeSlot == row.timeSlot)
      && (p.dentistId.Some? ==> after.dentistId == p.dentistId.value)
      && (p.dentistId.None? ==> after.dentistId == row.dentistId)
      && (NoFields(p) ==> after == row)
      && Patched(after, p) == after
  {
  }

  /** `updateSchedule`: the update is issued without a lookup, so an unknown
      id changes nothing and still succeeds; with no column to set the
      statement is malformed and the handler answers 500. */
  method UpdateSchedule(conn: Connection, scheduleId: Option<int>, p: SchedulePatch) returns (res: Response<SchedulePatch>)
    requires conn.Valid()
    modifies conn
    ensures conn.Valid()
    ensures res.Fail? ==> conn.State() == old(conn.State()) && conn.activity == old(conn.activity)
    ensures scheduleId.None? ==> res == Fail(BadRequest("Missing schedule ID"))
    ensures scheduleId.Some? && NoFields(p) ==> res == Fail(ServerError(EmptySetClause))
    ensures scheduleId.Some? && !NoFields(p) ==>
      var id := scheduleId.value;
      && res == Ok(p)
      && conn.State() == old(conn.State()).(
           schedules := if id in old(conn.schedules) then old(conn.schedules)[id := Patched(old(conn.schedules)[id], p)]
                        else old(conn.schedules))
      && conn.activity == old(conn.activity) + [Activity("SCHEDULE_UPDATED", Record(id))]
  {
    if scheduleId.None? {
      return Fail(BadRequest("Missing schedule ID"));
    }
    var id := scheduleId.value;
    if NoFields(p) {
      return Fail(ServerError(EmptySetClause));
    }
    if id in conn.schedules {
      conn.schedules := conn.schedules[id := Patched(conn.schedules[id], p)];
    }
    conn.Log(Activity("SCHEDULE_UPDATED", Record(id)));
    res := Ok(p);
  }

  /** `deleteSchedule`: look up, delete, log. */
  method DeleteSchedule(conn: Connection, scheduleId: Option<int>) returns (res: Response<int>)
    requires conn.Valid()
    modifies conn
    ensures conn.Valid()
    ensures res.Fail? ==> conn.State() == old(conn.State()) && conn.activity == old(conn.activity)
    ensures scheduleId.None? ==> res == Fail(BadRequest("Missing schedule ID"))
    ensures scheduleId.Some? && scheduleId.value !in old(conn.schedules) ==>
      res == Fail(NotFound("Schedule not found"))
    ensures scheduleId.Some? && scheduleId.value in old(conn.schedules) ==>
      var id := scheduleId.value;
      && res == Ok(id)
      && conn.State() == old(conn.State()).(schedules := old(conn.schedules) - {id})
      && conn.activity == old(conn.activity) + [Activity("SCHEDULE_DELETED", Record(id))]
  {
    if scheduleId.None? {
      return Fail(BadRequest("Missing schedule ID"));
    }
    var id := scheduleId.value;
    if id !in conn.schedules {
      return Fail(NotFound("Schedule not found"));
    }
    conn.schedules := conn.schedules - {id};
    conn.Log(Activity("SCHEDULE_DELETED", Record(id)));
    res := Ok(id);
  }
}

=== FILE: db.dfy ===
/**
 * The relational store the controllers read and write: one row type per
 * table (columns as declared in the schema migration), the `Connection`
 * that holds every table as a map from primary key to row, the tagged
 * responses the controllers return and the activity log they append to.
 */
module Db {
  import opened Php

  /** An opaque clock reading (`new \DateTime()`, `CURRENT_TIMESTAMP`). */
  type Timestamp = int

  datatype UserRow = UserRow(
    email: string,
    username: string,
    password: string,
    firstName: Option<string>,
    lastName: Option<string>,
    createdAt: Option<Timestamp>,
    roles: string,                // JSON text, e.g. "[\"ROLE_USER\"]"
    disable: Option<int>)

  datatype RoleRow = RoleRow(roleName: string)

  datatype UserRoleRow = UserRoleRow(userId: int, roleId: int)

  datatype ServiceRow = ServiceRow(name: string, serviceTypeId: int)

  datatype DentistServiceRow = DentistServiceRow(userId: int, serviceId: int)

  datatype ScheduleRow = ScheduleRow(dayOfWeek: string, timeSlot: string, dentistId: int)

  datatype AppointmentRow = AppointmentRow(
    appointmentDate: Timestamp,
    emergency: Option<int>,
    userSetDate: Option<string>,
    status: Option<string>,
    message: Option<string>,
    deletedOn: Option<Timestamp>,
    patientId: int,
    dentistId: int,
    scheduleId: int,
    appointmentTypeId: Option<int>,
    serviceId: Option<int>)

  /** The column values a booking inserts (the `create` history snapshot). */
  datatype AppointmentValues = AppointmentValues(
    patientId: int,
    dentistId: int,
    scheduleId: int,
    emergency: Option<int>,
    appointmentTypeId: Option<int>,
    userSetDate: Option<string>,
    status: Option<string>,
    message: Option<string>,
    serviceId: Option<int>)

  /** The JSON `snapshot` column of an appointment history row. */
  datatype Snapshot =
    | Created(values: AppointmentValues)
    | Changed(before: AppointmentRow, after: AppointmentRow)

  datatype AppointmentLogRow = AppointmentLogRow(
    loggedAt: Timestamp,
    actorType: string,
    action: Option<string>,
    message: Option<string>,
    snapshot: Option<Snapshot>,
    appointmentId: Option<int>)

  datatype ReminderRow = ReminderRow(information: Json, viewed: Option<int>, appointmentId: Option<int>)

  /** Every id of a table lies in [1, next): AUTO_INCREMENT starts at 1 and
      only ever hands out `next`. */
  predicate IdsBelow(keys: set<int>, next: int) {
    1 <= next && forall id :: id in keys ==> 1 <= id < next
  }

  /** UNIQUE INDEX on reminder.appointment_id (NULLs may repeat). */
  predicate OneReminderPerAppointment(reminders: map<int, ReminderRow>) {
    forall r1, r2 ::
      (r1 in reminders && r2 in reminders && reminders[r1].appointmentId.Some? &&
       reminders[r1].appointmentId == reminders[r2].appointmentId) ==> r1 == r2
  }

  /** UNIQUE INDEXes on user.email and user.username. */
  predicate UniqueLogins(users: map<int, UserRow>) {
    && (forall u1, u2 :: u1 in users && u2 in users && users[u1].email == users[u2].email ==> u1 == u2)
    && (forall u1, u2 :: u1 in users && u2 in users && users[u1].username == users[u2].username ==> u1 == u2)
  }

  /** Keys of a table whose counter the model does not track: AUTO_INCREMENT
      never hands out 0 or a negative id. */
  predicate PositiveKeys(keys: set<int>) {
    forall id :: id in keys ==> 1 <= id
  }

  /** Every history row that names an appointment names an existing one
      (the foreign key with ON DELETE CASCADE). */
  predicate LogsLinked(logs: map<int, AppointmentLogRow>, appointments: map<int, AppointmentRow>) {
    forall l :: l in logs && logs[l].appointmentId.Some? ==> logs[l].appointmentId.value in appointments
  }

  /** The contents of the whole store. */
  datatype Database = Database(
    users: map<int, UserRow>,
    roles: map<int, RoleRow>,
    userRoles: map<int, UserRoleRow>,
    services: map<int, ServiceRow>,
    dentistServices: map<int, DentistServiceRow>,
    schedules: map<int, ScheduleRow>,
    appointments: map<int, AppointmentRow>,
    appointmentLogs: map<int, AppointmentLogRow>,
    reminders: map<int, ReminderRow>,
    nextUserId: int,
    nextDentistServiceId: int,
    nextScheduleId: int,
    nextAppointmentId: int,
    nextLogId: int,
    nextReminderId: int)
  {
    /** What the schema guarantees of every reachable state. */
    predicate Valid() {
      && IdsBelow(users.Keys, nextUserId)
      && IdsBelow(dentistServices.Keys, nextDentistServiceId)
      && IdsBelow(schedules.Keys, nextScheduleId)
      && IdsBelow(appointments.Keys, nextAppointmentId)
      && IdsBelow(appointmentLogs.Keys, nextLogId)
      && IdsBelow(reminders.Keys, nextReminderId)
      && PositiveKeys(services.Keys)
      && OneReminderPerAppointment(reminders)
      && UniqueLogins(users)
      && LogsLinked(appointmentLogs, appointments)
    }
  }

  /** The schedule ids that some appointment row references, soft-deleted
      rows included. */
  function ScheduleRefs(appointments: map<int, AppointmentRow>): set<int> {
    set a | a in appointments :: appointments[a].scheduleId
  }

  /** A non-2xx response: 400, 403, 404, 409 or 500 with its message. */
  datatype Failure =
    | BadRequest(message: string)
    | Forbidden(message: string)
    | NotFound(message: string)
    | Conflict(message: string)
    | ServerError(message: string)
  {
    function Code(): (c: int)
      ensures c in {400, 403, 404, 409, 500}
    {
      match this
      case BadRequest(_) => 400
      case Forbidden(_) => 403
      case NotFound(_) => 404
      case Conflict(_) => 409
      case ServerError(_) => 500
    }
  }

  datatype Response<+T> = Ok(value: T) | Fail(failure: Failure)

  /** The message of the exception MySQL raises for a write that breaks a
      UNIQUE index (the driver's exact text is not modelled). */
  const DuplicateEntry := "Integrity constraint violation: duplicate entry"

  /** The message of the exception raised by an UPDATE whose column list is
      empty (`UPDATE t SET  WHERE ...` is not valid SQL). */
  const EmptySetClause := "Syntax error: UPDATE with an empty SET clause"

  function MissingField(name: string): string {
    "Missing required field: " + name
  }

  /** The required-field loop of the admin endpoints: the name of the first
      field, in the listed order, whose value is missing. */
  method FirstMissing(names: seq<string>, present: seq<bool>) returns (missing: Option<string>)
    requires |names| == |present|
    ensures missing.None? <==> forall i :: 0 <= i < |present| ==> present[i]
    ensures missing.Some? ==> exists i :: 0 <= i < |names| && !present[i] && missing.value == names[i] &&
                                         forall j :: 0 <= j < i ==> present[j]
  {
    var i := 0;
    while i < |names|
      invariant 0 <= i <= |names|
      invariant forall j :: 0 <= j < i ==> present[j]
    {
      if !present[i] {
        return Some(names[i]);
      }
      i := i + 1;
    }
    return None;
  }

  /** What the activity log records about an action. */
  datatype Target =
    | Record(id: int)
    | StatusChange(id: int, from: Option<string>, to: string)
    | NoTarget

  /** One row appended to the activity log (action tag and its subject). */
  datatype Activity = Activity(action: string, target: Target)

  /** The DBAL connection: every table, each AUTO_INCREMENT counter, and the
      activity log written beside them. */
  class Connection {
    var users: map<int, UserRow>
    var roles: map<int, RoleRow>
    var userRoles: map<int, UserRoleRow>
    var services: map<int, ServiceRow>
    var dentistServices: map<int, DentistServiceRow>
    var schedules: map<int, ScheduleRow>
    var appointments: map<int, AppointmentRow>
    var appointmentLogs: map<int, AppointmentLogRow>
    var reminders: map<int, ReminderRow>
    var nextUserId: int
    var nextDentistServiceId: int
    var nextScheduleId: int
    var nextAppointmentId: int
    var nextLogId: int
    var nextReminderId: int
    var activity: seq<Activity>

    function State(): Database
      reads this
    {
      Database(users, roles, userRoles, services, dentistServices, schedules,
               appointments, appointmentLogs, reminders, nextUserId,
               nextDentistServiceId, nextScheduleId, nextAppointmentId,
               nextLogId, nextReminderId)
    }

    predicate Valid()
      reads this
    {
      State().Valid()
    }

    /** A connection to a store holding `d`, with an empty activity log. */
    constructor (d: Database)
      requires d.Valid()
      ensures Valid() && State() == d && activity == []
    {
      users, roles, userRoles, services := d.users, d.roles, d.userRoles, d.services;
      dentistServices, schedules, appointments := d.dentistServices, d.schedules, d.appointments;
      appointmentLogs, reminders := d.appointmentLogs, d.reminders;
      nextUserId, nextDentistServiceId, nextScheduleId := d.nextUserId, d.nextDentistServiceId, d.nextScheduleId;
      nextAppointmentId, nextLogId, nextReminderId := d.nextAppointmentId, d.nextLogId, d.nextReminderId;
      activity := [];
    }

    /** `$logger->log(...)` after the write. */
    method Log(a: Activity)
      modifies this
      ensures State() == old(State()) && activity == old(activity) + [a]
    {
      activity := activity + [a];
    }

    /** `insert('appointment', ...)` followed by `lastInsertId()`. */
    method InsertAppointment(row: AppointmentRow) returns (id: int)
      requires Valid()
      modifies this
      ensures Valid() && activity == old(activity)
      ensures id == old(nextAppointmentId) && id !in old(appointments) && id >= 1
      ensures State() == old(State()).(appointments := old(appointments)[id := row], nextAppointmentId := id + 1)
    {
      id := nextAppointmentId;
      appointments := appointments[id := row];
      nextAppointmentId := id + 1;
    }

    /** `insert('appointment_log', ...)`. */
    method InsertLog(row: AppointmentLogRow) returns (id: int)
      requires Valid()
      requires row.appointmentId.Some? ==> row.appointmentId.value in appointments
      modifies this
      ensures Valid() && activity == old(activity)
      ensures id == old(nextLogId) && id !in old(appointmentLogs)
      ensures State() == old(State()).(appointmentLogs := old(appointmentLogs)[id := row], nextLogId := id + 1)
    {
      id := nextLogId;
      appointmentLogs := appointmentLogs[id := row];
      nextLogId := id + 1;
    }

    /** `insert('schedule', ...)` followed by `lastInsertId()`. */
    method InsertSchedule(row: ScheduleRow) returns (id: int)
      requires Valid()
      modifies this
      ensures Valid() && activity == old(activity)
      ensures id == old(nextScheduleId) && id !in old(schedules)
      ensures State() == old(State()).(schedules := old(schedules)[id := row], nextScheduleId := id + 1)
    {
      id := nextScheduleId;
      schedules := schedules[id := row];
      nextScheduleId := id + 1;
    }

    /** `insert('dentist_service', ...)` followed by `lastInsertId()`. */
    method InsertDentistService(row: DentistServiceRow) returns (id: int)
      requires Valid()
      modifies this
      ensures Valid() && activity == old(activity)
      ensures id == old(nextDentistServiceId) && id !in old(dentistServices)
      ensures State() == old(State()).(dentistServices := old(dentistServices)[id := row], nextDentistServiceId := id + 1)
    {
      id := nextDentistServiceId;
      dentistServices := dentistServices[id := row];
      nextDentistServiceId := id + 1;
    }

    /** `insert('reminder', ...)`; the unique index admits it only when no
        reminder holds the same appointment id. */
    method InsertReminder(row: ReminderRow) returns (id: int)
      requires Valid()
      requires row.appointmentId.Some? ==>
        forall r :: r in reminders ==> reminders[r].appointmentId != row.appointmentId
      modifies this
      ensures Valid() && activity == old(activity)
      ensures id == old(nextReminderId) && id !in old(reminders)
      ensures State() == old(State()).(reminders := old(reminders)[id := row], nextReminderId := id + 1)
    {
      id := nextReminderId;
      reminders := reminders[id := row];
      nextReminderId := id + 1;
    }

    /** `insert('user', ...)`; the unique indexes admit it only for an unused
        email and username. */
    method InsertUser(row: UserRow) returns (id: int)
      requires Valid()
      requires forall u :: u in users ==> users[u].email != row.email && users[u].username != row.username
      modifies this
      ensures Valid() && activity == old(activity)
      ensures id == old(nextUserId) && id !in old(users)
      ensures State() == old(State()).(users := old(users)[id := row], nextUserId := id + 1)
    {
      id := nextUserId;
      users := users[id := row];
      nextUserId := id + 1;
    }
  }
}

=== FILE: dentist_reminder.dfy ===
/**
 * A dentist's note attached to an appointment (`/api/save-reminder`,
 * `/api/update-reminder`, `/api/get-reminder`): an upsert keyed on
 * `appointment_id`, which the reminder table's unique index keeps to one
 * row per appointment.
 */
module DentistReminder {
  import opened Php
  import opened Db

  /** The reminder table and its AUTO_INCREMENT counter. */
  datatype Reminders = Reminders(rows: map<int, ReminderRow>, next: int)

  /** `SELECT * FROM reminder WHERE appointment_id = ?` finds a row. */
  predicate HasReminder(rows: map<int, ReminderRow>, appointment: int) {
    exists r :: r in rows && rows[r].appointmentId == Some(appointment)
  }

  /** The payload held for an appointment, if any (the `information` that
      `getReminder` returns). */
  ghost function Stored(rows: map<int, ReminderRow>, appointment: int): Option<Json> {
    if HasReminder(rows, appointment) then
      var r :| r in rows && rows[r].appointmentId == Some(appointment);
      Some(rows[r].information)
    else None
  }

  /** The shared branch of `saveReminder` and `updateReminder`: overwrite the
      `information` of the appointment's reminder, or insert one. */
  function Upsert(t: Reminders, appointment: int, payload: Json): Reminders {
    if HasReminder(t.rows, appointment) then
      t.(rows := map r | r in t.rows ::
                  if t.rows[r].appointmentId == Some(appointment) then t.rows[r].(information := payload)
                  else t.rows[r])
    else Reminders(t.rows[t.next := ReminderRow(payload, None, Some(appointment))], t.next + 1)
  }

  /** After an upsert the appointment holds exactly the new payload; the
      unique index and the id bound still hold; an existing reminder keeps
      its id and `viewed` flag, otherwise one fresh row is added; rows and
      payloads of other appointments are unchanged. */
  lemma UpsertStores(t: Reminders, appointment: int, payload: Json)
    requires IdsBelow(t.rows.Keys, t.next) && OneReminderPerAppointment(t.rows)
    ensures var u := Upsert(t, appointment, payload);
      && IdsBelow(u.rows.Keys, u.next) && OneReminderPerAppointment(u.rows)
      && Stored(u.rows, appointment) == Some(payload)
      && (HasReminder(t.rows, appointment) ==>
            u.rows.Keys == t.rows.Keys && u.next == t.next &&
            forall r :: r in t.rows ==> u.rows[r].viewed == t.rows[r].viewed &&
                                        u.rows[r].appointmentId == t.rows[r].appointmentId)
      && (!HasReminder(t.rows, appointment) ==>
            u.rows.Keys == t.rows.Keys + {t.next} && t.next !in t.rows &&
            u.rows[t.next] == ReminderRow(payload, None, Some(appointment)))
      && (forall r :: r in t.rows && t.rows[r].appointmentId != Some(appointment) ==>
            r in u.rows && u.rows[r] == t.rows[r])
      && (forall b :: b != appointment ==> Stored(u.rows, b) == Stored(t.rows, b))
  {
    var u := Upsert(t, appointment, payload);
    assert HasReminder(u.rows, appointment) by {
      if HasReminder(t.rows, appointment) {
        var r :| r in t.rows && t.rows[r].appointmentId == Some(appointment);
        assert u.rows[r].appointmentId == Some(appointment);
      } else {
        assert u.rows[t.next].appointmentId == Some(appointment);
      }
    }
    forall b | b != appointment
      ensures Stored(u.rows, b) == Stored(t.rows, b)
    {
      if HasReminder(t.rows, b) {
        var r :| r in t.rows && t.rows[r].appointmentId == Some(b);
        assert u.rows[r] == t.rows[r];
      }
    }
  }

  /** Saving twice is saving the last payload once: the first save leaves
      nothing the second does not overwrite. */
  lemma UpsertLastWins(t: Reminders, appointment: int, first: Json, second: Json)
    requires IdsBelow(t.rows.Keys, t.next)
    ensures Upsert(Upsert(t, appointment, first), appointment, second) == Upsert(t, appointment, second)
  {
    var u := Upsert(t, appointment, first);
    if HasReminder(t.rows, appointment) {
      var r :| r in t.rows && t.rows[r].appointmentId == Some(appointment);
      assert u.rows[r].appointmentId == Some(appointment);
    } else {
      assert u.rows[t.next].appointmentId == Some(appointment);
      var w := Upsert(u, appointment, second);
      var expected := t.rows[t.next := ReminderRow(second, None, Some(appointment))];
      assert w.rows.Keys == expected.Keys;
      forall r | r in w.rows
        ensures w.rows[r] == expected[r]
      {
        if r != t.next {
          assert u.rows[r] == t.rows[r];
        }
      }
    }
  }

  /** Writes the upsert to the connection; says whether it inserted. */
  method ApplyUpsert(conn: Connection, appointment: int, payload: Json) returns (created: bool)
    requires conn.Valid()
    modifies conn
    ensures conn.Valid() && conn.activity == old(conn.activity)
    ensures created <==> !HasReminder(old(conn.reminders), appointment)
    ensures var u := Upsert(Reminders(old(conn.reminders), old(conn.nextReminderId)), appointment, payload);
      conn.State() == old(conn.State()).(reminders := u.rows, nextReminderId := u.next)
  {
    UpsertStores(Reminders(conn.reminders, conn.nextReminderId), appointment, payload);
    if HasReminder(conn.reminders, appointment) {
      conn.reminders := map r | r in conn.reminders ::
        if conn.reminders[r].appointmentId == Some(appointment) then conn.reminders[r].(information := payload)
        else conn.reminders[r];
      created := false;
    } else {
      var _ := conn.InsertReminder(ReminderRow(payload, None, Some(appointment)));
      created := true;
    }
  }

  /** `saveReminder`. */
  method SaveReminder(conn: Connection, appointmentId: Option<int>, payload: Json) returns (res: Response<string>)
    requires conn.Valid()
    modifies conn
    ensures conn.Valid()
    ensures !JsonTruthy(payload) || !OptIntTruthy(appointmentId) ==>
      && res == Fail(BadRequest("Missing payload or appointmentID"))
      && conn.State() == old(conn.State()) && conn.activity == old(conn.activity)
    ensures JsonTruthy(payload) && OptIntTruthy(appointmentId) ==>
      var a := appointmentId.value;
      var u := Upsert(Reminders(old(conn.reminders), old(conn.nextReminderId)), a, payload);
      && res == Ok("Reminder saved successfully")
      && conn.State() == old(conn.State()).(reminders := u.rows, nextReminderId := u.next)
      && conn.activity == old(conn.activity) +
           [Activity(if HasReminder(old(conn.reminders), a) then "REMINDER_UPDATED" else "REMINDER_CREATED", Record(a))]
  {
    if !JsonTruthy(payload) || !OptIntTruthy(appointmentId) {
      return Fail(BadRequest("Missing payload or appointmentID"));
    }
    var created := ApplyUpsert(conn, appointmentId.value, payload);
    conn.Log(Activity(if created then "REMINDER_CREATED" else "REMINDER_UPDATED", Record(appointmentId.value)));
    res := Ok("Reminder saved successfully");
  }

  /** `updateReminder`: the same validation and upsert, with its own messages. */
  method UpdateReminder(conn: Connection, appointmentId: Option<int>, payload: Json) returns (res: Response<string>)
    requires conn.Valid()
    modifies conn
    ensures conn.Valid()
    ensures !OptIntTruthy(appointmentId) || !JsonTruthy(payload) ==>
      && res == Fail(BadRequest("Missing appointmentID or payload"))
      && conn.State() == old(conn.State()) && conn.activity == old(conn.activity)
    ensures OptIntTruthy(appointmentId) && JsonTruthy(payload) ==>
      var a := appointmentId.value;
      var existed := HasReminder(old(conn.reminders), a);
      var u := Upsert(Reminders(old(conn.reminders), old(conn.nextReminderId)), a, payload);
      && res == Ok(if existed then "Reminder updated successfully" else "Reminder created successfully")
      && conn.State() == old(conn.State()).(reminders := u.rows, nextReminderId := u.next)
      && conn.activity == old(conn.activity) +
           [Activity(if existed then "REMINDER_UPDATED" else "REMINDER_CREATED", Record(a))]
  {
    if !OptIntTruthy(appointmentId) || !JsonTruthy(payload) {
      return Fail(BadRequest("Missing appointmentID or payload"));
    }
    var created := ApplyUpsert(conn, appointmentId.value, payload);
    conn.Log(Activity(if created then "REMINDER_CREATED" else "REMINDER_UPDATED", Record(appointmentId.value)));
    res := Ok(if created then "Reminder created successfully" else "Reminder updated successfully");
  }

  /** `getReminder`: the stored payload, or None ("No reminder found"). */
  method GetReminder(conn: Connection, appointmentId: Option<int>) returns (res: Response<Option<Json>>)
    requires conn.Valid()
    ensures !OptIntTruthy(appointmentId) ==> res == Fail(BadRequest("Missing appointmentID"))
    ensures OptIntTruthy(appointmentId) ==> res == Ok(Stored(conn.reminders, appointmentId.value))
  {
    if !OptIntTruthy(appointmentId) {
      return Fail(BadRequest("Missing appointmentID"));
    }
    var a := appointmentId.value;
    if HasReminder(conn.reminders, a) {
      var r :| r in conn.reminders && conn.reminders[r].appointmentId == Some(a);
      res := Ok(Some(conn.reminders[r].information));
    } else {
      res := Ok(None);
    }
  }

  /** A save followed by a get returns the saved payload. */
  method SaveThenGet(conn: Connection, appointmentId: int, payload: Json) returns (got: Response<Option<Json>>)
    requires conn.Valid() && appointmentId != 0 && JsonTruthy(payload)
    modifies conn
    ensures got == Ok(Some(payload))
  {
    UpsertStores(Reminders(conn.reminders, conn.nextReminderId), appointmentId, payload);
    var saved := SaveReminder(conn, Some(appointmentId), payload);
    got := GetReminder(conn, Some(appointmentId));
  }
}

=== FILE: dentist_update_appointment.dfy ===
/**
 * A dentist's status change (`POST /api/edit-appointment-dentist`): the
 * status column of one appointment is overwritten with any non-empty
 * string; there is no transition rule.
 */
module DentistUpdateAppointment {
  import opened Php
  import opened Db

  /** The table after `update('appointment', ['status' => ...], ...)`. */
  function WithStatus(appointments: map<int, AppointmentRow>, id: int, status: string): map<int, AppointmentRow>
    requires id in appointments
  {
    appointments[id := appointments[id].(status := Some(status))]
  }

  /** Only the status of that one appointment changes, the slot references
      stay, and a later change simply replaces an earlier one. */
  lemma WithStatusChangesOnlyStatus(appointments: map<int, AppointmentRow>, id: int, status: string, next: string)
    requires id in appointments
    ensures var after := WithStatus(appointments, id, status);
      && after.Keys == appointments.Keys
      && after[id].status == Some(status)
      && after[id].(status := appointments[id].status) == appointments[id]
      && (forall other :: other in appointments && other != id ==> after[other] == appointments[other])
      && ScheduleRefs(after) == ScheduleRefs(appointments)
      && WithStatus(after, id, next) == WithStatus(appointments, id, next)
  {
    var after := WithStatus(appointments, id, status);
    forall s | s in ScheduleRefs(appointments)
      ensures s in ScheduleRefs(after)
    {
      var a :| a in appointments && appointments[a].scheduleId == s;
      assert after[a].scheduleId == s;
    }
  }

  /** `getAppointment` (the route's handler, despite its name, updates):
      validate, look up, set the status, and log the old and new status. */
  method GetAppointment(conn: Connection, appointmentId: Option<int>, status: Option<string>) returns (res: Response<()>)
    requires conn.Valid()
    modifies conn
    ensures conn.Valid()
    ensures res.Fail? ==> conn.State() == old(conn.State()) && conn.activity == old(conn.activity)
    ensures !OptIntTruthy(appointmentId) || !OptStrTruthy(status) ==>
      res == Fail(BadRequest("Missing required fields: appointment_id or status"))
    ensures OptIntTruthy(appointmentId) && OptStrTruthy(status) ==>
      var id := appointmentId.value;
      && (id !in old(conn.appointments) ==> res == Fail(NotFound("Appointment not found")))
      && (id in old(conn.appointments) ==>
            && res == Ok(())
            && conn.State() == old(conn.State()).(appointments := WithStatus(old(conn.appointments), id, status.value))
            && conn.activity == old(conn.activity) +
                 [Activity("RECORD_UPDATED", StatusChange(id, old(conn.appointments)[id].status, status.value))])
  {
    if !OptIntTruthy(appointmentId) || !OptStrTruthy(status) {
      return Fail(BadRequest("Missing required fields: appointment_id or status"));
    }
    var id := appointmentId.value;
    if id !in conn.appointments {
      return Fail(NotFound("Appointment not found"));
    }
    var appointment := conn.appointments[id];
    conn.appointments := conn.appointments[id := appointment.(status := status)];
    conn.Log(Activity("RECORD_UPDATED", StatusChange(id, appointment.status, status.value)));
    res := Ok(());
  }
}

=== FILE: edit_settings.dfy ===
/**
 * A dentist's settings page: the weekly-schedule reconciler
 * (`POST /api/update-dentist-settings`) and the service-assignment diff
 * (`POST /api/edit-services`).
 *
 * The reconciler walks the submitted slot list once, updating owned slots
 * in place and inserting id-less ones; every owned slot the walk did not
 * touch is deleted unless some appointment row (soft-deleted ones included)
 * still references it. All writes happen in one transaction: the method
 * builds the new schedule table in locals and commits it at the end.
 */
module EditSettings {
  import opened Php
  import opened Db

  // ---------------------------------------------------------------------
  // Schedule reconciliation
  // ---------------------------------------------------------------------

  /** One element of the submitted `schedules` list. */
  datatype SlotEntry = SlotEntry(
    scheduleId: Option<int>,
    dayOfWeek: Option<string>,
    timeSlot: Option<string>,
    dentistId: Option<int>)

  /** `$schedule["day_of_week"] ?? null`, as stored. */
  function DayOf(e: SlotEntry): string {
    e.dayOfWeek.GetOr("")
  }

  /** `trim($schedule["time_slot"] ?? "")`, as stored. */
  function TimeOf(e: SlotEntry): string {
    Trim(e.timeSlot.GetOr(""))
  }

  /** An entry the loop does not skip: a truthy day and a truthy trimmed time. */
  predicate Usable(e: SlotEntry) {
    OptStrTruthy(e.dayOfWeek) && StrTruthy(TimeOf(e))
  }

  /** A usable entry that names owned slot `id` (and so rewrites it). */
  predicate Revises(e: SlotEntry, owned: set<int>, id: int) {
    Usable(e) && e.scheduleId == Some(id) && id != 0 && id in owned
  }

  /** A usable entry without a `scheduleID` (and so inserts a slot). */
  predicate IsNewSlot(e: SlotEntry) {
    Usable(e) && e.scheduleId.None?
  }

  /** The loop's variables: the schedule table, `$processedIDs` and the
      next AUTO_INCREMENT id. */
  datatype Pass = Pass(slots: map<int, ScheduleRow>, processed: seq<int>, next: int)

  /** One iteration of the `foreach` over the submitted entries. */
  function Step(p: Pass, owned: set<int>, dentist: int, e: SlotEntry): Pass {
    if !Usable(e) then p
    else if OptIntTruthy(e.scheduleId) && e.scheduleId.value in owned then
      var id := e.scheduleId.value;
      p.(slots := if id in p.slots then p.slots[id := p.slots[id].(dayOfWeek := DayOf(e), timeSlot := TimeOf(e))]
                  else p.slots,
         processed := p.processed + [id])
    else if e.scheduleId.None? then
      p.(slots := p.slots[p.next := ScheduleRow(DayOf(e), TimeOf(e), dentist)],
         processed := p.processed + [p.next],
         next := p.next + 1)
    else p
  }

  /** The whole loop over `es`, from the left. */
  function Apply(p: Pass, owned: set<int>, dentist: int, es: seq<SlotEntry>): Pass
    decreases |es|
  {
    if es == [] then p
    else Step(Apply(p, owned, dentist, es[..|es| - 1]), owned, dentist, es[|es| - 1])
  }

  // Reference definitions the loop is proved against.

  /** The last entry that rewrites owned slot `id`, if any. */
  function LastRevision(es: seq<SlotEntry>, owned: set<int>, id: int): Option<SlotEntry>
    decreases |es|
  {
    if es == [] then None
    else if Revises(es[|es| - 1], owned, id) then Some(es[|es| - 1])
    else LastRevision(es[..|es| - 1], owned, id)
  }

  /** The entries that insert a slot, in order. */
  function NewSlots(es: seq<SlotEntry>): seq<SlotEntry>
    decreases |es|
  {
    if es == [] then []
    else NewSlots(es[..|es| - 1]) + (if IsNewSlot(es[|es| - 1]) then [es[|es| - 1]] else [])
  }

  function Revised(row: ScheduleRow, e: Option<SlotEntry>): ScheduleRow {
    match e
    case None => row
    case Some(x) => row.(dayOfWeek := DayOf(x), timeSlot := TimeOf(x))
  }

  function NewSlot(e: SlotEntry, dentist: int): ScheduleRow {
    ScheduleRow(DayOf(e), TimeOf(e), dentist)
  }

  /** One step leaves alone every row that is neither owned nor the next
      fresh id. */
  lemma StepFrame(q: Pass, owned: set<int>, dentist: int, e: SlotEntry, id: int)
    requires id in q.slots && id !in owned && id != q.next
    ensures var r := Step(q, owned, dentist, e);
      id in r.slots && r.slots[id] == q.slots[id]
  {
  }

  /** One step rewrites an owned row exactly when the entry revises it. */
  lemma StepOwned(q: Pass, owned: set<int>, dentist: int, e: SlotEntry, id: int)
    requires id in q.slots && id in owned && id != q.next
    ensures var r := Step(q, owned, dentist, e);
      && id in r.slots
      && r.slots[id] == (if Revises(e, owned, id) then Revised(q.slots[id], Some(e)) else q.slots[id])
  {
  }

  /** The counter advances once per id-less usable entry. */
  lemma {:induction false} ApplyCount(p: Pass, owned: set<int>, dentist: int, es: seq<SlotEntry>)
    ensures Apply(p, owned, dentist, es).next == p.next + |NewSlots(es)|
    decreases |es|
  {
    if es != [] {
      var init, e := es[..|es| - 1], es[|es| - 1];
      ApplyCount(p, owned, dentist, init);
      assert NewSlots(es) == NewSlots(init) + (if IsNewSlot(e) then [e] else []);
    }
  }

  /** How many slots the loop inserts, and which ids the table then holds:
      the old ones and a contiguous block of fresh ones. */
  lemma {:induction false} ApplyShape(p: Pass, owned: set<int>, dentist: int, es: seq<SlotEntry>)
    ensures var r := Apply(p, owned, dentist, es);
      && r.next == p.next + |NewSlots(es)|
      && (forall id :: id in r.slots <==> id in p.slots || p.next <= id < r.next)
    decreases |es|
  {
    ApplyCount(p, owned, dentist, es);
    if es != [] {
      var init, e := es[..|es| - 1], es[|es| - 1];
      ApplyShape(p, owned, dentist, init);
      var q := Apply(p, owned, dentist, init);
      assert Apply(p, owned, dentist, es) == Step(q, owned, dentist, e);
    }
  }

  /** A slot outside `owned` keeps its row. */
  lemma {:induction false} ApplyOthers(p: Pass, owned: set<int>, dentist: int, es: seq<SlotEntry>, id: int)
    requires id in p.slots && id !in owned && id < p.next
    ensures var r := Apply(p, owned, dentist, es);
      id in r.slots && r.slots[id] == p.slots[id]
    decreases |es|
  {
    if es != [] {
      var init, e := es[..|es| - 1], es[|es| - 1];
      ApplyOthers(p, owned, dentist, init, id);
      ApplyCount(p, owned, dentist, init);
      var q := Apply(p, owned, dentist, init);
      assert Apply(p, owned, dentist, es) == Step(q, owned, dentist, e);
      StepFrame(q, owned, dentist, e, id);
    }
  }

  /** An owned slot carries the day and time of the last entry naming it. */
  lemma {:induction false} ApplyOwned(p: Pass, owned: set<int>, dentist: int, es: seq<SlotEntry>, id: int)
    requires id in p.slots && id in owned && id < p.next
    ensures var r := Apply(p, owned, dentist, es);
      id in r.slots && r.slots[id] == Revised(p.slots[id], LastRevision(es, owned, id))
    decreases |es|
  {
    if es != [] {
      var init, e := es[..|es| - 1], es[|es| - 1];
      ApplyOwned(p, owned, dentist, init, id);
      ApplyCount(p, owned, dentist, init);
      var q := Apply(p, owned, dentist, init);
      assert Apply(p, owned, dentist, es) == Step(q, owned, dentist, e);
      StepOwned(q, owned, dentist, e, id);
      assert LastRevision(es, owned, id) ==
        if Revises(e, owned, id) then Some(e) else LastRevision(init, owned, id);
    }
  }

  /** The k-th id-less usable entry becomes slot `next + k`. */
  lemma {:induction false} ApplyNew(p: Pass, owned: set<int>, dentist: int, es: seq<SlotEntry>, k: int)
    requires forall id :: id in owned ==> id < p.next
    requires 0 <= k < |NewSlots(es)|
    ensures var r := Apply(p, owned, dentist, es);
      p.next + k in r.slots && r.slots[p.next + k] == NewSlot(NewSlots(es)[k], dentist)
    decreases |es|
  {
    assert es != [];
    var init, e := es[..|es| - 1], es[|es| - 1];
    ApplyCount(p, owned, dentist, init);
    var q := Apply(p, owned, dentist, init);
    assert Apply(p, owned, dentist, es) == Step(q, owned, dentist, e);
    assert NewSlots(es) == NewSlots(init) + (if IsNewSlot(e) then [e] else []);
    if k < |NewSlots(init)| {
      ApplyNew(p, owned, dentist, init, k);
      assert NewSlots(es)[k] == NewSlots(init)[k];
      StepFrame(q, owned, dentist, e, p.next + k);
    } else {
      assert IsNewSlot(e) && NewSlots(es)[k] == e && p.next + k == q.next;
    }
  }

  /** `$processedIDs` holds exactly the rewritten and the inserted ids. */
  lemma {:induction false} ApplyProcessed(p: Pass, owned: set<int>, dentist: int, es: seq<SlotEntry>)
    requires p.processed == []
    ensures var r := Apply(p, owned, dentist, es);
      forall x :: x in r.processed <==> (x in owned && LastRevision(es, owned, x).Some?) || p.next <= x < r.next
    decreases |es|
  {
    ApplyCount(p, owned, dentist, es);
    if es != [] {
      var init, e := es[..|es| - 1], es[|es| - 1];
      ApplyProcessed(p, owned, dentist, init);
      ApplyCount(p, owned, dentist, init);
      var q := Apply(p, owned, dentist, init);
      var r := Step(q, owned, dentist, e);
      assert Apply(p, owned, dentist, es) == r;
      forall x
        ensures x in r.processed <==> (x in owned && LastRevision(es, owned, x).Some?) || p.next <= x < r.next
      {
        assert LastRevision(es, owned, x) ==
          if Revises(e, owned, x) then Some(e) else LastRevision(init, owned, x);
        assert x in r.processed <==> x in q.processed || x in r.processed[|q.processed|..];
      }
    }
  }

  /** The slot ids owned by `dentist` (`SELECT scheduleID FROM schedule WHERE dentistID = ?`). */
  function OwnedSlots(schedules: map<int, ScheduleRow>, dentist: int): set<int> {
    set id | id in schedules && schedules[id].dentistId == dentist
  }

  /** The outcome of one reconciliation: the new schedule table and counter,
      and the three id lists the response reports. */
  datatype Reconciled = Reconciled(
    slots: map<int, ScheduleRow>,
    next: int,
    processed: seq<int>,
    deleted: set<int>,
    notDeleted: set<int>)

  /** The loop, `array_unique`, `array_diff($existingIDs, $processedIDs)`,
      the reference check and the guarded `DELETE`. */
  function Reconcile(db: Database, dentist: int, es: seq<SlotEntry>): Reconciled {
    var owned := OwnedSlots(db.schedules, dentist);
    var pass := Apply(Pass(db.schedules, [], db.nextScheduleId), owned, dentist, es);
    var processed := Dedup(pass.processed);
    var toDelete := owned - Elements(processed);
    var referenced := toDelete * ScheduleRefs(db.appointments);
    var safe := toDelete - referenced;
    Reconciled(pass.slots - safe, pass.next, processed, safe, referenced)
  }

  /** The ids the dentist originally owned split three ways: processed
      (rewritten), deleted, and kept because an appointment references them;
      the three parts are pairwise disjoint. */
  lemma ReconcilePartition(db: Database, dentist: int, es: seq<SlotEntry>)
    ensures var r := Reconcile(db, dentist, es);
      var owned := OwnedSlots(db.schedules, dentist);
      var kept := Elements(r.processed) * owned;
      && owned == kept + r.deleted + r.notDeleted
      && kept !! r.deleted && kept !! r.notDeleted && r.deleted !! r.notDeleted
      && r.deleted == (owned - Elements(r.processed)) - ScheduleRefs(db.appointments)
      && r.notDeleted <= owned - Elements(r.processed)
      && NoDuplicates(r.processed)
  {
  }

  /** No slot that an appointment row references is deleted; those of the
      dentist's omitted slots are reported as not deleted. */
  lemma ReconcileKeepsReferenced(db: Database, dentist: int, es: seq<SlotEntry>)
    ensures var r := Reconcile(db, dentist, es);
      && (forall id :: id in db.schedules && id in ScheduleRefs(db.appointments) ==> id in r.slots)
      && (forall id :: id in r.deleted ==> id !in ScheduleRefs(db.appointments) && id !in r.slots)
      && r.notDeleted == (OwnedSlots(db.schedules, dentist) - Elements(r.processed)) * ScheduleRefs(db.appointments)
  {
    var owned := OwnedSlots(db.schedules, dentist);
    ApplyShape(Pass(db.schedules, [], db.nextScheduleId), owned, dentist, es);
  }

  /** Slots of other dentists are neither rewritten nor deleted. */
  lemma ReconcileLeavesOthers(db: Database, dentist: int, es: seq<SlotEntry>)
    requires IdsBelow(db.schedules.Keys, db.nextScheduleId)
    ensures var r := Reconcile(db, dentist, es);
      forall id :: id in db.schedules && db.schedules[id].dentistId != dentist ==>
        id in r.slots && r.slots[id] == db.schedules[id]
  {
    var owned := OwnedSlots(db.schedules, dentist);
    forall id | id in db.schedules && db.schedules[id].dentistId != dentist
      ensures id in Reconcile(db, dentist, es).slots && Reconcile(db, dentist, es).slots[id] == db.schedules[id]
    {
      ApplyOthers(Pass(db.schedules, [], db.nextScheduleId), owned, dentist, es, id);
    }
  }

  /** Each owned slot ends in one of three ways: rewritten by the last entry
      naming it, kept unchanged because it is referenced, or deleted. */
  lemma {:induction false} ReconcileOwned(db: Database, dentist: int, es: seq<SlotEntry>, id: int)
    requires IdsBelow(db.schedules.Keys, db.nextScheduleId) && id in OwnedSlots(db.schedules, dentist)
    ensures var r := Reconcile(db, dentist, es);
      var last := LastRevision(es, OwnedSlots(db.schedules, dentist), id);
      && (last.Some? ==> id in r.slots && r.slots[id] == Revised(db.schedules[id], last) && id in r.processed)
      && (last.None? && id in ScheduleRefs(db.appointments) ==>
            id in r.slots && r.slots[id] == db.schedules[id] && id in r.notDeleted)
      && (last.None? && id !in ScheduleRefs(db.appointments) ==> id !in r.slots && id in r.deleted)
  {
    var owned := OwnedSlots(db.schedules, dentist);
    var p := Pass(db.schedules, [], db.nextScheduleId);
    ApplyOwned(p, owned, dentist, es, id);
    ApplyProcessed(p, owned, dentist, es);
  }

  /** The i-th id-less usable entry becomes a new slot of this dentist with
      id `nextScheduleId + i`; no other id is added. */
  lemma {:induction false} ReconcileInserts(db: Database, dentist: int, es: seq<SlotEntry>)
    requires IdsBelow(db.schedules.Keys, db.nextScheduleId)
    ensures var r := Reconcile(db, dentist, es);
      var n := db.nextScheduleId;
      && r.next == n + |NewSlots(es)|
      && (forall id :: id in r.slots <==> (id in db.schedules && id !in r.deleted) || n <= id < r.next)
      && (forall k :: 0 <= k < |NewSlots(es)| ==> Inserted(r, n + k, NewSlots(es)[k], dentist))
  {
    ReconcileKeys(db, dentist, es);
    forall k | 0 <= k < |NewSlots(es)| {
      ReconcileNewSlot(db, dentist, es, k);
    }
  }

  /** Slot `id` of the reconciled table is the new slot of entry `e`, and
      is reported as processed. */
  predicate Inserted(r: Reconciled, id: int, e: SlotEntry, dentist: int) {
    id in r.slots && id in r.processed && r.slots[id] == NewSlot(e, dentist)
  }

  /** The counter and the ids of the reconciled table. */
  lemma {:induction false} ReconcileKeys(db: Database, dentist: int, es: seq<SlotEntry>)
    requires IdsBelow(db.schedules.Keys, db.nextScheduleId)
    ensures var r := Reconcile(db, dentist, es);
      var n := db.nextScheduleId;
      && r.next == n + |NewSlots(es)|
      && (forall id :: id in r.slots <==> (id in db.schedules && id !in r.deleted) || n <= id < r.next)
  {
    ReconcileFromPass(db, dentist, es);
    ApplyShape(Pass(db.schedules, [], db.nextScheduleId), OwnedSlots(db.schedules, dentist), dentist, es);
  }

  /** The k-th id-less usable entry's slot survives reconciliation and is
      reported as processed. */
  lemma {:induction false} ReconcileNewSlot(db: Database, dentist: int, es: seq<SlotEntry>, k: int)
    requires IdsBelow(db.schedules.Keys, db.nextScheduleId)
    requires 0 <= k < |NewSlots(es)|
    ensures Inserted(Reconcile(db, dentist, es), db.nextScheduleId + k, NewSlots(es)[k], dentist)
  {
    var owned := OwnedSlots(db.schedules, dentist);
    var p := Pass(db.schedules, [], db.nextScheduleId);
    var id := db.nextScheduleId + k;
    ReconcileFromPass(db, dentist, es);
    ApplyCount(p, owned, dentist, es);
    ApplyNew(p, owned, dentist, es, k);
    ApplyProcessed(p, owned, dentist, es);
    var pass := Apply(p, owned, dentist, es);
    var r := Reconcile(db, dentist, es);
    assert id !in owned;
    assert id in pass.slots && pass.slots[id] == NewSlot(NewSlots(es)[k], dentist);
    assert id < pass.next;
    assert id in pass.processed;
    assert id in r.processed;
    assert id !in r.deleted;
    assert id in r.slots;
  }

  /** The outcome of a reconciliation read off the loop's final pass: the
      table minus the deleted ids (all of them owned), the loop's counter,
      and the loop's ids without repeats. */
  lemma {:induction false} ReconcileFromPass(db: Database, dentist: int, es: seq<SlotEntry>)
    ensures var owned := OwnedSlots(db.schedules, dentist);
      var pass := Apply(Pass(db.schedules, [], db.nextScheduleId), owned, dentist, es);
      var r := Reconcile(db, dentist, es);
      && r.slots == pass.slots - r.deleted && r.next == pass.next
      && r.deleted <= owned
      && (forall x :: x in r.processed <==> x in pass.processed)
  {
  }

  /** An empty list is a valid request: it deletes every owned slot that no
      appointment references and keeps the referenced ones. */
  lemma ReconcileEmptyList(db: Database, dentist: int)
    ensures var r := Reconcile(db, dentist, []);
      var owned := OwnedSlots(db.schedules, dentist);
      && r.processed == []
      && r.deleted == owned - ScheduleRefs(db.appointments)
      && r.notDeleted == owned * ScheduleRefs(db.appointments)
      && r.slots == db.schedules - r.deleted
      && r.next == db.nextScheduleId
  {
    var owned := OwnedSlots(db.schedules, dentist);
    assert Apply(Pass(db.schedules, [], db.nextScheduleId), owned, dentist, []).processed == [];
  }

  /** Reconciliation keeps the schedule table's ids below its counter. */
  lemma ReconcileValid(db: Database, dentist: int, es: seq<SlotEntry>)
    requires db.Valid()
    ensures var r := Reconcile(db, dentist, es);
      db.(schedules := r.slots, nextScheduleId := r.next).Valid()
  {
    var owned := OwnedSlots(db.schedules, dentist);
    ApplyShape(Pass(db.schedules, [], db.nextScheduleId), owned, dentist, es);
  }

  /** `$dentistID`: the caller's id or, for a caller without one, the
      `dentistID` of the first entry; None when that is falsy too. */
  function ResolveDentist(callerId: int, es: seq<SlotEntry>): Option<int> {
    if callerId != 0 then Some(callerId)
    else if |es| > 0 && OptIntTruthy(es[0].dentistId) then es[0].dentistId
    else None
  }

  /** The lower-cased names of the user's roles (user_role joined with role). */
  function RoleNames(db: Database, user: int): set<string> {
    set ur | ur in db.userRoles && db.userRoles[ur].userId == user && db.userRoles[ur].roleId in db.roles
      :: Lower(db.roles[db.userRoles[ur].roleId].roleName)
  }

  /** The response body of a successful reconciliation. */
  datatype EditOutcome = EditOutcome(
    dentistId: int,
    dentist: UserRow,
    roleNames: set<string>,
    processed: seq<int>,
    deleted: set<int>,
    notDeleted: set<int>)

  /** `Edit`: validate, authorise, reconcile, commit, log. */
  method Edit(conn: Connection, callerId: int, schedules: Option<seq<SlotEntry>>) returns (res: Response<EditOutcome>)
    requires conn.Valid()
    modifies conn
    ensures conn.Valid()
    ensures res.Fail? ==> conn.State() == old(conn.State()) && conn.activity == old(conn.activity)
    ensures schedules.None? ==> res == Fail(BadRequest("Invalid JSON payload"))
    ensures schedules.Some? && ResolveDentist(callerId, schedules.value).None? ==>
      res == Fail(BadRequest("Missing dentistID"))
    ensures schedules.Some? && ResolveDentist(callerId, schedules.value).Some? ==>
      var d := ResolveDentist(callerId, schedules.value).value;
      && (d !in old(conn.users) ==> res == Fail(NotFound("User not found")))
      && (d in old(conn.users) && "dentist" !in RoleNames(old(conn.State()), d) ==>
            res == Fail(Forbidden("User is not authorized as a dentist")))
      && (d in old(conn.users) && "dentist" in RoleNames(old(conn.State()), d) ==>
            var r := Reconcile(old(conn.State()), d, schedules.value);
            && res == Ok(EditOutcome(d, old(conn.users)[d], RoleNames(old(conn.State()), d),
                                     r.processed, r.deleted, r.notDeleted))
            && conn.State() == old(conn.State()).(schedules := r.slots, nextScheduleId := r.next)
            && conn.activity == old(conn.activity) + [Activity("SCHEDULE_UPDATED", Record(d))])
  {
    if schedules.None? {
      return Fail(BadRequest("Invalid JSON payload"));
    }
    var entries := schedules.value;
    var resolved := ResolveDentist(callerId, entries);
    if resolved.None? {
      return Fail(BadRequest("Missing dentistID"));
    }
    var dentistId := resolved.value;
    if dentistId !in conn.users {
      return Fail(NotFound("User not found"));
    }
    var roleNames := RoleNames(conn.State(), dentistId);
    if "dentist" !in roleNames {
      return Fail(Forbidden("User is not authorized as a dentist"));
    }

    var r := ReconcileSlots(conn.State(), dentistId, entries);
    ReconcileValid(conn.State(), dentistId, entries);
    conn.schedules, conn.nextScheduleId := r.slots, r.next;   // commit
    conn.Log(Activity("SCHEDULE_UPDATED", Record(dentistId)));
    res := Ok(EditOutcome(dentistId, conn.users[dentistId], roleNames, r.processed, r.deleted, r.notDeleted));
  }

  /** The body of `Edit`'s transaction: the per-entry loop over a working
      copy of the schedule table, then the deletion of unprocessed,
      unreferenced slots. */
  method ReconcileSlots(db: Database, dentistId: int, entries: seq<SlotEntry>) returns (r: Reconciled)
    ensures r == Reconcile(db, dentistId, entries)
  {
    var existing := OwnedSlots(db.schedules, dentistId);
    var slots, processed, next := db.schedules, [], db.nextScheduleId;
    var i := 0;
    while i < |entries|
      invariant 0 <= i <= |entries|
      invariant Pass(slots, processed, next) == Apply(Pass(db.schedules, [], db.nextScheduleId), existing, dentistId, entries[..i])
    {
      var e := entries[i];
      var day := e.dayOfWeek.GetOr("");
      var time := Trim(e.timeSlot.GetOr(""));
      if !OptStrTruthy(e.dayOfWeek) || !StrTruthy(time) {
        // skip entries with missing data
      } else if OptIntTruthy(e.scheduleId) && e.scheduleId.value in existing {
        var id := e.scheduleId.value;
        if id in slots {
          slots := slots[id := slots[id].(dayOfWeek := day, timeSlot := time)];
        }
        processed := processed + [id];
      } else if e.scheduleId.None? {
        slots := slots[next := ScheduleRow(day, time, dentistId)];
        processed := processed + [next];
        next := next + 1;
      }
      assert entries[..i + 1][..i] == entries[..i];
      i := i + 1;
    }
    assert entries[..i] == entries;

    processed := Dedup(processed);
    var toDelete := existing - Elements(processed);
    var referenced := toDelete * ScheduleRefs(db.appointments);
    var safeToDelete := toDelete - referenced;
    r := Reconciled(slots - safeToDelete, next, processed, safeToDelete, referenced);
  }

  // ---------------------------------------------------------------------
  // Service assignment
  // ---------------------------------------------------------------------

  /** One element of the submitted `payload` list. */
  datatype ServiceItem = ServiceItem(serviceId: Option<int>)

  /** `array_map(fn ($item) => (int)$item['service_id'], $payload)`. */
  function RequestedServices(items: seq<ServiceItem>): seq<int> {
    seq(|items|, i requires 0 <= i < |items| => items[i].serviceId.GetOr(0))
  }

  /** The service ids linked to `user` in dentist_service. */
  function AssignedServices(links: map<int, DentistServiceRow>, user: int): set<int> {
    set id | id in links && links[id].userId == user :: links[id].serviceId
  }

  /** The dentist_service table and its AUTO_INCREMENT counter. */
  datatype Links = Links(rows: map<int, DentistServiceRow>, next: int)

  /** The insert loop: one new row per id, in order. */
  function AddLinks(l: Links, user: int, ids: seq<int>): Links
    decreases |ids|
  {
    if ids == [] then l
    else
      var m := AddLinks(l, user, ids[..|ids| - 1]);
      Links(m.rows[m.next := DentistServiceRow(user, ids[|ids| - 1])], m.next + 1)
  }

  /** The delete loop: every row of `user` whose service is in `ids`. */
  function DropLinks(rows: map<int, DentistServiceRow>, user: int, ids: set<int>): map<int, DentistServiceRow> {
    map id | id in rows && !(rows[id].userId == user && rows[id].serviceId in ids) :: rows[id]
  }

  lemma {:induction false} AddLinksFacts(l: Links, user: int, ids: seq<int>)
    requires IdsBelow(l.rows.Keys, l.next)
    ensures var m := AddLinks(l, user, ids);
      && m.next == l.next + |ids|
      && (forall id :: id in m.rows <==> id in l.rows || l.next <= id < m.next)
      && (forall id :: id in l.rows ==> m.rows[id] == l.rows[id])
      && (forall k :: 0 <= k < |ids| ==> m.rows[l.next + k] == DentistServiceRow(user, ids[k]))
    decreases |ids|
  {
    if ids != [] {
      AddLinksFacts(l, user, ids[..|ids| - 1]);
    }
  }

  /** Deleting service set `a` and then `b` is deleting `a + b`. */
  lemma DropLinksTwice(rows: map<int, DentistServiceRow>, user: int, a: set<int>, b: set<int>)
    ensures DropLinks(DropLinks(rows, user, a), user, b) == DropLinks(rows, user, a + b)
  {
    assert DropLinks(DropLinks(rows, user, a), user, b).Keys == DropLinks(rows, user, a + b).Keys;
  }

  /** `toInsert = array_diff($new, $existing)` inserted, then
      `toDelete = array_diff($existing, $new)` deleted. */
  function Reassign(l: Links, user: int, wanted: seq<int>): Links {
    var current := AssignedServices(l.rows, user);
    var m := AddLinks(l, user, Diff(wanted, current));
    Links(DropLinks(m.rows, user, current - Elements(wanted)), m.next)
  }

  /** Every requested service is assigned afterwards. */
  lemma ReassignCovers(l: Links, user: int, wanted: seq<int>, s: int)
    requires IdsBelow(l.rows.Keys, l.next) && s in wanted
    ensures s in AssignedServices(Reassign(l, user, wanted).rows, user)
  {
    var current := AssignedServices(l.rows, user);
    var added := Diff(wanted, current);
    AddLinksFacts(l, user, added);
    var m := AddLinks(l, user, added);
    var final := Reassign(l, user, wanted).rows;
    if s in current {
      var id :| id in l.rows && l.rows[id].userId == user && l.rows[id].serviceId == s;
      assert id in final && final[id].serviceId == s;
    } else {
      var k :| 0 <= k < |added| && added[k] == s;
      assert m.rows[l.next + k] == DentistServiceRow(user, s);
      assert l.next + k in final;
    }
  }

  /** Every service assigned afterwards was requested. */
  lemma ReassignOnlyWanted(l: Links, user: int, wanted: seq<int>, s: int)
    requires IdsBelow(l.rows.Keys, l.next)
    requires s in AssignedServices(Reassign(l, user, wanted).rows, user)
    ensures s in wanted
  {
    var current := AssignedServices(l.rows, user);
    var added := Diff(wanted, current);
    AddLinksFacts(l, user, added);
    var final := Reassign(l, user, wanted).rows;
    var id :| id in final && final[id].userId == user && final[id].serviceId == s;
    if id in l.rows {
      assert s in current;
    } else {
      var k :| 0 <= k < |added| && id == l.next + k;
      assert s == added[k];
    }
  }

  /** Afterwards the user holds exactly the requested services. */
  lemma ReassignExact(l: Links, user: int, wanted: seq<int>)
    requires IdsBelow(l.rows.Keys, l.next)
    ensures AssignedServices(Reassign(l, user, wanted).rows, user) == Elements(wanted)
  {
    forall s | s in Elements(wanted)
      ensures s in AssignedServices(Reassign(l, user, wanted).rows, user)
    {
      ReassignCovers(l, user, wanted, s);
    }
    forall s | s in AssignedServices(Reassign(l, user, wanted).rows, user)
      ensures s in Elements(wanted)
    {
      ReassignOnlyWanted(l, user, wanted, s);
    }
  }

  /** `editServices` as a whole: a service is assigned to the dentist
      afterwards iff some payload item names it, an item without
      `service_id` naming service 0. */
  lemma AssignsRequested(l: Links, user: int, items: seq<ServiceItem>, s: int)
    requires IdsBelow(l.rows.Keys, l.next)
    ensures s in AssignedServices(Reassign(l, user, Dedup(RequestedServices(items))).rows, user) <==>
            exists i :: 0 <= i < |items| && items[i].serviceId.GetOr(0) == s
  {
    var ids := RequestedServices(items);
    ReassignExact(l, user, Dedup(ids));
    if s in ids {
      var i :| 0 <= i < |ids| && ids[i] == s;
      assert items[i].serviceId.GetOr(0) == s;
    }
    if exists i :: 0 <= i < |items| && items[i].serviceId.GetOr(0) == s {
      var i :| 0 <= i < |items| && items[i].serviceId.GetOr(0) == s;
      assert ids[i] == s;
    }
  }

  /** Rows of other users, and the user's rows for services that stay, are
      untouched; every new row is a fresh id holding an added service of
      this user; the ids stay below the counter. */
  lemma {:induction false} ReassignFrame(l: Links, user: int, wanted: seq<int>)
    requires IdsBelow(l.rows.Keys, l.next)
    ensures var r := Reassign(l, user, wanted);
      var current := AssignedServices(l.rows, user);
      && (forall id :: id in l.rows && l.rows[id].userId != user ==> id in r.rows && r.rows[id] == l.rows[id])
      && (forall id :: id in l.rows && l.rows[id].serviceId in wanted ==> id in r.rows && r.rows[id] == l.rows[id])
      && (forall id :: id in r.rows && id !in l.rows ==>
            l.next <= id && r.rows[id].userId == user && r.rows[id].serviceId in Diff(wanted, current))
      && IdsBelow(r.rows.Keys, r.next)
  {
    var current := AssignedServices(l.rows, user);
    var added := Diff(wanted, current);
    AddLinksFacts(l, user, added);
    var r := Reassign(l, user, wanted);
    forall id | id in r.rows && id !in l.rows
      ensures l.next <= id && r.rows[id].userId == user && r.rows[id].serviceId in added
    {
      var k :| 0 <= k < |added| && id == l.next + k;
      assert r.rows[id] == DentistServiceRow(user, added[k]);
    }
  }

  /** The insert loop of `editServices`, one row per id. */
  method InsertLinks(rows0: map<int, DentistServiceRow>, next0: int, user: int, ids: seq<int>)
    returns (rows: map<int, DentistServiceRow>, next: int)
    ensures Links(rows, next) == AddLinks(Links(rows0, next0), user, ids)
  {
    rows, next := rows0, next0;
    var i := 0;
    while i < |ids|
      invariant 0 <= i <= |ids|
      invariant Links(rows, next) == AddLinks(Links(rows0, next0), user, ids[..i])
    {
      rows := rows[next := DentistServiceRow(user, ids[i])];
      next := next + 1;
      assert ids[..i + 1][..i] == ids[..i];
      i := i + 1;
    }
    assert ids[..i] == ids;
  }

  /** The delete loop of `editServices`, one `DELETE ... WHERE user_id = ?
      AND service_id = ?` per id. */
  method DeleteLinks(rows0: map<int, DentistServiceRow>, user: int, ids: set<int>)
    returns (rows: map<int, DentistServiceRow>)
    ensures rows == DropLinks(rows0, user, ids)
  {
    rows := rows0;
    var remaining := ids;
    assert DropLinks(rows0, user, {}) == rows0;
    while remaining != {}
      invariant remaining <= ids
      invariant rows == DropLinks(rows0, user, ids - remaining)
      decreases remaining
    {
      if forall x :: x !in remaining {
        assert false;   // remaining != {}
      }
      var serviceId :| serviceId in remaining;
      DropLinksTwice(rows0, user, ids - remaining, {serviceId});
      rows := DropLinks(rows, user, {serviceId});
      remaining := remaining - {serviceId};
      assert ids - remaining == (ids - (remaining + {serviceId})) + {serviceId};
    }
    assert ids - remaining == ids;
  }

  /** The response body of `editServices`. */
  datatype ServiceDiff = ServiceDiff(added: seq<int>, removed: set<int>, finalServices: seq<int>)

  /** `editServices`: diff the requested service ids against the caller's
      current ones and apply the inserts and deletes in one transaction. */
  method EditServices(conn: Connection, callerId: int, payload: Option<seq<ServiceItem>>) returns (res: Response<ServiceDiff>)
    requires conn.Valid()
    modifies conn
    ensures conn.Valid()
    ensures payload.None? ==>
      res == Fail(BadRequest("Invalid request")) && conn.State() == old(conn.State()) && conn.activity == old(conn.activity)
    ensures payload.Some? ==>
      var wanted := Dedup(RequestedServices(payload.value));
      var current := AssignedServices(old(conn.dentistServices), callerId);
      var r := Reassign(Links(old(conn.dentistServices), old(conn.nextDentistServiceId)), callerId, wanted);
      && res == Ok(ServiceDiff(Diff(wanted, current), current - Elements(wanted), wanted))
      && conn.State() == old(conn.State()).(dentistServices := r.rows, nextDentistServiceId := r.next)
      && conn.activity == old(conn.activity) + [Activity("SERVICES_UPDATED", Record(callerId))]
  {
    if payload.None? {
      return Fail(BadRequest("Invalid request"));
    }
    var existing := AssignedServices(conn.dentistServices, callerId);
    var newServiceIds := Dedup(RequestedServices(payload.value));
    var toInsert := Diff(newServiceIds, existing);
    var toDelete := existing - Elements(newServiceIds);

    ghost var l0 := Links(conn.dentistServices, conn.nextDentistServiceId);
    var rows, next := InsertLinks(conn.dentistServices, conn.nextDentistServiceId, callerId, toInsert);
    rows := DeleteLinks(rows, callerId, toDelete);
    ReassignFrame(l0, callerId, newServiceIds);
    conn.dentistServices, conn.nextDentistServiceId := rows, next;   // commit
    assert conn.State() == old(conn.State()).(dentistServices := rows, nextDentistServiceId := next);
    conn.Log(Activity("SERVICES_UPDATED", Record(callerId)));
    res := Ok(ServiceDiff(toInsert, toDelete, newServiceIds));
  }
}

=== FILE: patient_delete_appointment.dfy ===
/**
 * A patient's cancellation (`POST /api/delete-appointment`): a soft delete
 * that stamps `deleted_on` and keeps the row; and the `deleted_on IS NULL`
 * filter by which the appointment listings hide such rows.
 */
module DeleteAppointmentApi {
  import opened Php
  import opened Db
  import EditSettings

  /** The table after `update('appointment', ['deleted_on' => now], ...)`. */
  function SoftDelete(appointments: map<int, AppointmentRow>, id: int, now: Timestamp): map<int, AppointmentRow>
    requires id in appointments
  {
    appointments[id := appointments[id].(deletedOn := Some(now))]
  }

  /** A patient's listed appointments: `WHERE a.patient_id = ? AND a.deleted_on IS NULL`. */
  function ActiveFor(appointments: map<int, AppointmentRow>, patient: int): set<int> {
    set id | id in appointments && appointments[id].patientId == patient && appointments[id].deletedOn.None?
  }

  /** A soft delete keeps every row and every other column, hides exactly
      that appointment from its patient's listing, and is repeatable: a
      second delete only refreshes the stamp. */
  lemma SoftDeleteHides(appointments: map<int, AppointmentRow>, id: int, now: Timestamp, later: Timestamp)
    requires id in appointments
    ensures var after := SoftDelete(appointments, id, now);
      var patient := appointments[id].patientId;
      && after.Keys == appointments.Keys
      && after[id] == appointments[id].(deletedOn := Some(now))
      && (forall other :: other in appointments && other != id ==> after[other] == appointments[other])
      && ActiveFor(after, patient) == ActiveFor(appointments, patient) - {id}
      && (forall p :: p != patient ==> ActiveFor(after, p) == ActiveFor(appointments, p))
      && SoftDelete(after, id, later) == SoftDelete(appointments, id, later)
  {
  }

  /** The soft-deleted row still references its slot. */
  lemma SoftDeleteKeepsScheduleRefs(appointments: map<int, AppointmentRow>, id: int, now: Timestamp)
    requires id in appointments
    ensures ScheduleRefs(SoftDelete(appointments, id, now)) == ScheduleRefs(appointments)
  {
    var after := SoftDelete(appointments, id, now);
    forall s | s in ScheduleRefs(appointments)
      ensures s in ScheduleRefs(after)
    {
      var a :| a in appointments && appointments[a].scheduleId == s;
      assert after[a].scheduleId == s;
    }
  }

  /** A cancelled appointment still holds its slot: a later schedule
      reconciliation by any dentist keeps that slot, and reports it as not
      deleted when the dentist owns it and left it out of the list. */
  lemma SoftDeletedSlotStaysBlocked(db: Database, id: int, now: Timestamp, dentist: int, es: seq<EditSettings.SlotEntry>)
    requires db.Valid() && id in db.appointments
    ensures var after := db.(appointments := SoftDelete(db.appointments, id, now));
      var slot := db.appointments[id].scheduleId;
      var r := EditSettings.Reconcile(after, dentist, es);
      && slot !in r.deleted
      && (slot in db.schedules ==> slot in r.slots)
      && (slot in EditSettings.OwnedSlots(db.schedules, dentist) - Elements(r.processed) ==> slot in r.notDeleted)
  {
    var after := db.(appointments := SoftDelete(db.appointments, id, now));
    SoftDeleteKeepsScheduleRefs(db.appointments, id, now);
    assert db.appointments[id].scheduleId in ScheduleRefs(db.appointments);
    EditSettings.ReconcileKeepsReferenced(after, dentist, es);
  }

  /** `deleteAppointment`: validate, look up, stamp, log. Returns the id. */
  method DeleteAppointment(conn: Connection, now: Timestamp, appointmentId: Option<int>) returns (res: Response<int>)
    requires conn.Valid()
    modifies conn
    ensures conn.Valid()
    ensures res.Fail? ==> conn.State() == old(conn.State()) && conn.activity == old(conn.activity)
    ensures !OptIntTruthy(appointmentId) ==> res == Fail(BadRequest("Missing appointmentID"))
    ensures OptIntTruthy(appointmentId) ==>
      var id := appointmentId.value;
      && (id !in old(conn.appointments) ==> res == Fail(NotFound("Appointment not found")))
      && (id in old(conn.appointments) ==>
            && res == Ok(id)
            && conn.State() == old(conn.State()).(appointments := SoftDelete(old(conn.appointments), id, now))
            && conn.activity == old(conn.activity) + [Activity("RECORD_DELETED", Record(id))])
  {
    if !OptIntTruthy(appointmentId) {
      return Fail(BadRequest("Missing appointmentID"));
    }
    var id := appointmentId.value;
    if id !in conn.appointments {
      return Fail(NotFound("Appointment not found"));
    }
    conn.appointments := conn.appointments[id := conn.appointments[id].(deletedOn := Some(now))];
    conn.Log(Activity("RECORD_DELETED", Record(id)));
    res := Ok(id);
  }
}

=== FILE: patient_update_appointment.dfy ===
/**
 * A patient's edit of an appointment (`POST /api/update-appointment`):
 * five columns are rewritten and a history row records the row before and
 * after the update.
 */
module PatientUpdateAppointment {
  import opened Php
  import opened Db

  /** The decoded request body; a missing key reads as null. */
  datatype UpdateRequest = UpdateRequest(
    appointmentId: Option<int>,
    scheduleId: Option<int>,
    date: Option<string>,
    isEmergency: Json,
    isFamilyBooking: Json,
    message: Option<string>)

  /** The row after `update('appointment', [...], ['appointment_id' => ...])`. */
  function Revise(row: AppointmentRow, scheduleId: int, req: UpdateRequest): AppointmentRow {
    row.(scheduleId := scheduleId,
         userSetDate := req.date,
         emergency := Some(if JsonTruthy(req.isEmergency) then 1 else 0),
         appointmentTypeId := Some(if JsonTruthy(req.isFamilyBooking) then 2 else 1),
         message := req.message)
  }

  /** Only schedule, date, emergency flag, type and message change: status,
      patient, dentist, service, booking time and deletion mark stay; the
      flags follow `!empty(...)`; and resubmitting the same request changes
      nothing further. */
  lemma ReviseChangesOnlyEditableColumns(row: AppointmentRow, scheduleId: int, req: UpdateRequest)
    ensures var after := Revise(row, scheduleId, req);
      && after.status == row.status && after.patientId == row.patientId
      && after.dentistId == row.dentistId && after.serviceId == row.serviceId
      && after.deletedOn == row.deletedOn && after.appointmentDate == row.appointmentDate
      && after.scheduleId == scheduleId && after.userSetDate == req.date && after.message == req.message
      && (after.emergency == Some(1) <==> JsonTruthy(req.isEmergency))
      && (after.emergency == Some(0) <==> !JsonTruthy(req.isEmergency))
      && (after.appointmentTypeId == Some(2) <==> JsonTruthy(req.isFamilyBooking))
      && (after.appointmentTypeId == Some(1) <==> !JsonTruthy(req.isFamilyBooking))
      && Revise(after, scheduleId, req) == after
  {
  }

  /** The history row written after the update. */
  function UpdateLog(before: AppointmentRow, after: AppointmentRow, appointment: int, now: Timestamp): AppointmentLogRow {
    AppointmentLogRow(now, "patient", Some("update"), Some("Updated appointment details."),
                      Some(Changed(before, after)), Some(appointment))
  }

  /** `updateAppointment`: validate, look up, update, re-read, record the
      before/after snapshot, log. Returns the appointment and new slot id. */
  method UpdateAppointment(conn: Connection, now: Timestamp, req: UpdateRequest) returns (res: Response<(int, int)>)
    requires conn.Valid()
    modifies conn
    ensures conn.Valid()
    ensures res.Fail? ==> conn.State() == old(conn.State()) && conn.activity == old(conn.activity)
    ensures !OptIntTruthy(req.appointmentId) || !OptIntTruthy(req.scheduleId) ==>
      res == Fail(BadRequest("appointmentID and scheduleID are required"))
    ensures OptIntTruthy(req.appointmentId) && OptIntTruthy(req.scheduleId) ==>
      var id := req.appointmentId.value;
      && (id !in old(conn.appointments) ==> res == Fail(NotFound("Appointment not found")))
      && (id in old(conn.appointments) ==>
            var before := old(conn.appointments)[id];
            var after := Revise(before, req.scheduleId.value, req);
            && res == Ok((id, req.scheduleId.value))
            && conn.State() == old(conn.State()).(
                 appointments := old(conn.appointments)[id := after],
                 appointmentLogs := old(conn.appointmentLogs)[old(conn.nextLogId) := UpdateLog(before, after, id, now)],
                 nextLogId := old(conn.nextLogId) + 1)
            && conn.activity == old(conn.activity) + [Activity("RECORD_UPDATED", Record(id))])
  {
    if !OptIntTruthy(req.appointmentId) || !OptIntTruthy(req.scheduleId) {
      return Fail(BadRequest("appointmentID and scheduleID are required"));
    }
    var appointmentId, scheduleId := req.appointmentId.value, req.scheduleId.value;
    if appointmentId !in conn.appointments {
      return Fail(NotFound("Appointment not found"));
    }
    var appointment := conn.appointments[appointmentId];
    conn.appointments := conn.appointments[appointmentId := Revise(appointment, scheduleId, req)];
    var appointmentAfter := conn.appointments[appointmentId];
    var _ := conn.InsertLog(UpdateLog(appointment, appointmentAfter, appointmentId, now));
    conn.Log(Activity("RECORD_UPDATED", Record(appointmentId)));
    res := Ok((appointmentId, scheduleId));
  }
}

=== FILE: php.dfy ===
/**
 * The PHP value semantics the controllers rely on: absent/null request
 * fields, truthiness (`!$x`, `empty($x)`), `trim`, `strtolower`,
 * `array_unique` and `array_diff`.
 */
module Php {

  datatype Option<+T> = None | Some(value: T) {
    function GetOr(default: T): T {
      match this
      case Some(v) => v
      case None => default
    }
  }

  /** A request field that the code casts to int but also tests against "":
      absent or JSON null, the empty string, or a number. */
  datatype Input<+T> = Absent | Blank | Given(value: T)

  /** A decoded JSON value (`json_decode($s, true)`), used for flags and
      opaque payloads. */
  datatype Json =
    | JNull
    | JBool(b: bool)
    | JInt(i: int)
    | JStr(s: string)
    | JList(items: seq<Json>)
    | JObject(fields: map<string, Json>)

  /** PHP's boolean conversion of a string: "" and "0" are false. */
  predicate StrTruthy(s: string) {
    s != "" && s != "0"
  }

  /** `(bool) $v` for an optional string field (null is false). */
  predicate OptStrTruthy(o: Option<string>) {
    o.Some? && StrTruthy(o.value)
  }

  /** `(bool) $v` for an optional integer field (null and 0 are false). */
  predicate OptIntTruthy(o: Option<int>) {
    o.Some? && o.value != 0
  }

  /** `(bool) $v` for a decoded JSON value; `empty($v)` is its negation. */
  predicate JsonTruthy(j: Json) {
    match j
    case JNull => false
    case JBool(b) => b
    case JInt(i) => i != 0
    case JStr(s) => StrTruthy(s)
    case JList(items) => |items| > 0
    case JObject(fields) => |fields| > 0
  }

  /** `(int) $v` of an Input: "" casts to 0. */
  function InputToInt(v: Input<int>): int {
    match v
    case Given(n) => n
    case _ => 0
  }

  /** The characters PHP's `trim` strips by default: " \t\n\r\0\x0B". */
  predicate IsTrimChar(c: char) {
    c == ' ' || c == '\t' || c == '\n' || c == '\r' || c == '\0' || c == '\U{0B}'
  }

  function TrimLeft(s: string): string {
    if s != [] && IsTrimChar(s[0]) then TrimLeft(s[1..]) else s
  }

  function TrimRight(s: string): string {
    if s != [] && IsTrimChar(s[|s| - 1]) then TrimRight(s[..|s| - 1]) else s
  }

  /** `trim($s)`: strips the characters above from both ends. */
  function Trim(s: string): string {
    TrimRight(TrimLeft(s))
  }

  /** `TrimLeft` drops a prefix of trimmable characters and stops at the
      first other one. */
  lemma {:induction false} TrimLeftStrips(s: string)
    ensures var r := TrimLeft(s);
      && |r| <= |s| && r == s[|s| - |r|..]
      && (forall i :: 0 <= i < |s| - |r| ==> IsTrimChar(s[i]))
      && (r != [] ==> !IsTrimChar(r[0]))
    decreases |s|
  {
    if s != [] && IsTrimChar(s[0]) {
      TrimLeftStrips(s[1..]);
      var r := TrimLeft(s);
      assert r == TrimLeft(s[1..]);
      assert s[1..][|s| - 1 - |r|..] == s[|s| - |r|..];
      forall i | 0 <= i < |s| - |r|
        ensures IsTrimChar(s[i])
      {
        if i > 0 {
          assert s[i] == s[1..][i - 1];
        }
      }
    }
  }

  /** `TrimRight` drops a suffix of trimmable characters and stops at the
      last other one. */
  lemma {:induction false} TrimRightStrips(s: string)
    ensures var r := TrimRight(s);
      && |r| <= |s| && r == s[..|r|]
      && (forall i :: |r| <= i < |s| ==> IsTrimChar(s[i]))
      && (r != [] ==> !IsTrimChar(r[|r| - 1]))
    decreases |s|
  {
    if s != [] && IsTrimChar(s[|s| - 1]) {
      TrimRightStrips(s[..|s| - 1]);
      var r := TrimRight(s);
      assert r == TrimRight(s[..|s| - 1]);
      assert s[..|s| - 1][..|r|] == s[..|r|];
      forall i | |r| <= i < |s|
        ensures IsTrimChar(s[i])
      {
        if i < |s| - 1 {
          assert s[i] == s[..|s| - 1][i];
        }
      }
    }
  }

  /** `trim` returns a contiguous slice `s[k..k + |Trim(s)|]` of its input,
      where `k` is the length of the run it cuts at the front: what it cuts
      before and after the slice is all trimmable, and the slice has no
      trimmable character at either end. */
  lemma TrimStrips(s: string)
    ensures |TrimLeft(s)| <= |s| && |s| - |TrimLeft(s)| + |Trim(s)| <= |s|
    ensures Trim(s) == s[|s| - |TrimLeft(s)|..|s| - |TrimLeft(s)| + |Trim(s)|]
    ensures forall i :: 0 <= i < |s| - |TrimLeft(s)| ==> IsTrimChar(s[i])
    ensures forall i :: |s| - |TrimLeft(s)| + |Trim(s)| <= i < |s| ==> IsTrimChar(s[i])
    ensures Trim(s) != [] ==> !IsTrimChar(Trim(s)[0]) && !IsTrimChar(Trim(s)[|Trim(s)| - 1])
  {
    var l := TrimLeft(s);
    TrimLeftStrips(s);
    TrimRightStrips(l);
    var r := TrimRight(l);
    TrimSlice(s, l, r);
    if r != [] {
      assert r[0] == l[0];
    }
  }

  /** `trim` returns an input without trimmable characters unchanged and
      empties one made only of them. */
  lemma TrimKeepsOrEmpties(s: string)
    ensures (forall i :: 0 <= i < |s| ==> !IsTrimChar(s[i])) ==> Trim(s) == s
    ensures (forall i :: 0 <= i < |s| ==> IsTrimChar(s[i])) ==> Trim(s) == []
  {
    TrimStrips(s);
    if s != [] && forall i :: 0 <= i < |s| ==> !IsTrimChar(s[i]) {
      assert !IsTrimChar(s[0]) && !IsTrimChar(s[|s| - 1]);
    }
    if forall i :: 0 <= i < |s| ==> IsTrimChar(s[i]) {
      TrimLeftOfTrimChars(s);
    }
  }

  /** A suffix `l` of `s` whose prefix `r` is kept: `r` is the slice of `s`
      that starts where `l` does, and what follows it in `s` is what follows
      it in `l`. */
  lemma TrimSlice(s: string, l: string, r: string)
    requires |l| <= |s| && l == s[|s| - |l|..]
    requires |r| <= |l| && r == l[..|r|]
    requires forall i :: |r| <= i < |l| ==> IsTrimChar(l[i])
    ensures var k := |s| - |l|; r == s[k..k + |r|]
    ensures forall i :: |s| - |l| + |r| <= i < |s| ==> IsTrimChar(s[i])
  {
    var k := |s| - |l|;
    forall i | k + |r| <= i < |s|
      ensures IsTrimChar(s[i])
    {
      assert s[i] == l[i - k];
    }
  }

  /** A string made only of trimmable characters trims, from the left, to
      nothing. */
  lemma {:induction false} TrimLeftOfTrimChars(s: string)
    requires forall i :: 0 <= i < |s| ==> IsTrimChar(s[i])
    ensures TrimLeft(s) == []
    decreases |s|
  {
    if s != [] {
      assert IsTrimChar(s[0]);
      TrimLeftOfTrimChars(s[1..]);
    }
  }

  function LowerChar(c: char): char {
    if 'A' <= c <= 'Z' then (c as int + 32) as char else c
  }

  /** `strtolower($s)` (ASCII letters only, as in PHP 8). */
  function Lower(s: string): (r: string)
    ensures |r| == |s|
  {
    seq(|s|, i requires 0 <= i < |s| => LowerChar(s[i]))
  }

  predicate NoDuplicates<T(==)>(s: seq<T>) {
    forall i, j :: 0 <= i < j < |s| ==> s[i] != s[j]
  }

  /** `array_values(array_unique($s))`: keeps the first occurrence of each value. */
  function Dedup<T(==,!new)>(s: seq<T>): (r: seq<T>)
    ensures NoDuplicates(r)
    ensures forall x :: x in r <==> x in s
    ensures |r| <= |s|
    decreases |s|
  {
    if s == [] then []
    else
      var d := Dedup(s[..|s| - 1]);
      var x := s[|s| - 1];
      assert forall y :: y in s <==> y in s[..|s| - 1] || y == x;
      if x in d then d else d + [x]
  }

  /** The index of the first occurrence of `x` in `s`. */
  function FirstIndex<T(==)>(s: seq<T>, x: T): (i: nat)
    requires x in s
    ensures i < |s| && s[i] == x && x !in s[..i]
    decreases |s|
  {
    var init := s[..|s| - 1];
    if x in init then
      var i := FirstIndex(init, x);
      assert s[..i] == init[..i];
      i
    else
      assert s == init + [s[|s| - 1]];
      |s| - 1
  }

  /** An index holding `x` with no `x` before it is the first index of `x`. */
  lemma FirstIndexUnique<T>(s: seq<T>, x: T, i: int)
    requires 0 <= i < |s| && s[i] == x && x !in s[..i]
    ensures FirstIndex(s, x) == i
  {
  }

  /** `array_unique` keeps each value at its first occurrence, so the values
      of `Dedup(s)` come in the order in which they first appear in `s`. */
  lemma {:induction false} DedupKeepsFirstOrder<T(!new)>(s: seq<T>)
    ensures forall i, j :: 0 <= i < j < |Dedup(s)| ==> FirstIndex(s, Dedup(s)[i]) < FirstIndex(s, Dedup(s)[j])
    decreases |s|
  {
    if s != [] {
      var init := s[..|s| - 1];
      var x := s[|s| - 1];
      var d := Dedup(init);
      var r := Dedup(s);
      DedupKeepsFirstOrder(init);
      assert forall i, j :: 0 <= i < j < |d| ==> FirstIndex(init, d[i]) < FirstIndex(init, d[j]);
      forall i, j | 0 <= i < j < |r|
        ensures FirstIndex(s, r[i]) < FirstIndex(s, r[j])
      {
        assert r == if x in d then d else d + [x];
        assert r[i] == d[i] && r[i] in init;
        assert FirstIndex(s, r[i]) == FirstIndex(init, r[i]);
        if j < |d| {
          assert r[j] == d[j] && r[j] in init;
          assert FirstIndex(s, r[j]) == FirstIndex(init, r[j]);
          assert FirstIndex(init, d[i]) < FirstIndex(init, d[j]);
        } else {
          assert r[j] == x && x !in init;
          assert FirstIndex(s, r[j]) == |s| - 1;
          assert FirstIndex(init, r[i]) < |init|;
        }
      }
    }
  }

  /** `array_values(array_diff($a, $b))`: the elements of a that are not in b, in order. */
  function Diff<T(==,!new)>(a: seq<T>, b: set<T>): (r: seq<T>)
    ensures forall x :: x in r <==> x in a && x !in b
    ensures NoDuplicates(a) ==> NoDuplicates(r)
    decreases |a|
  {
    if a == [] then []
    else
      var d := Diff(a[..|a| - 1], b);
      var x := a[|a| - 1];
      assert forall y :: y in a <==> y in a[..|a| - 1] || y == x;
      if x in b then d else d + [x]
  }

  /** The elements of a sequence as a set. */
  function Elements<T(!new)>(s: seq<T>): (r: set<T>)
    ensures forall x :: x in r <==> x in s
  {
    set x | x in s
  }

  /** `array_diff` filters element by element and keeps the order of `a`:
      it distributes over concatenation. */
  lemma {:induction false} DiffKeepsOrder<T(!new)>(a1: seq<T>, a2: seq<T>, b: set<T>)
    ensures Diff(a1 + a2, b) == Diff(a1, b) + Diff(a2, b)
    decreases |a2|
  {
    if a2 == [] {
      assert a1 + a2 == a1;
    } else {
      var init := a2[..|a2| - 1];
      DiffKeepsOrder(a1, init, b);
      DiffLast(a1 + a2, b);
      DiffLast(a2, b);
      assert (a1 + a2)[..|a1 + a2| - 1] == a1 + init;
    }
  }

  /** One unfolding of `Diff` at the last element. */
  lemma DiffLast<T(!new)>(a: seq<T>, b: set<T>)
    requires a != []
    ensures Diff(a, b) == Diff(a[..|a| - 1], b) + (if a[|a| - 1] in b then [] else [a[|a| - 1]])
  {
  }

  /** On one element, `array_diff` keeps it exactly when `b` does not hold it. */
  lemma DiffSingle<T(!new)>(x: T, b: set<T>)
    ensures Diff([x], b) == if x in b then [] else [x]
  {
    assert [x][..0] == [];
  }
}

=== FILE: submit_appointment.dfy ===
/**
 * A patient's booking request (`POST /api/add-appointment`): the requested
 * (dentist, day, time) must name an existing schedule slot exactly; the
 * appointment and its `create` history row are then inserted one after
 * the other (there is no transaction around the two inserts).
 */
module SubmitAppointment {
  import opened Php
  import opened Db
  import EditSettings

  /** The decoded request body; a missing key reads as null. */
  datatype BookingRequest = BookingRequest(
    dentistId: Option<int>,
    day: Option<string>,
    time: Option<string>,
    serviceId: Option<int>,
    emergency: Json,
    familyBooking: Json,
    date: Option<string>,
    message: Option<string>)

  /** `isset($data['dentistID'], $data['day'], $data['time'])`. */
  predicate HasRequiredFields(req: BookingRequest) {
    req.dentistId.Some? && req.day.Some? && req.time.Some?
  }

  /** The slots `WHERE dentistID = ? AND day_of_week = ? AND time_slot = ?`. */
  function MatchingSlots(schedules: map<int, ScheduleRow>, dentist: int, day: string, time: string): set<int> {
    set id | id in schedules && schedules[id] == ScheduleRow(day, time, dentist)
  }

  /** A slot the dentist settings page revised can be booked with the day
      and the trimmed time that page stored for it. */
  lemma RevisedSlotBookable(db: Database, dentist: int, es: seq<EditSettings.SlotEntry>, id: int)
    requires IdsBelow(db.schedules.Keys, db.nextScheduleId)
    requires id in EditSettings.OwnedSlots(db.schedules, dentist)
    requires EditSettings.LastRevision(es, EditSettings.OwnedSlots(db.schedules, dentist), id).Some?
    ensures var e := EditSettings.LastRevision(es, EditSettings.OwnedSlots(db.schedules, dentist), id).value;
      id in MatchingSlots(EditSettings.Reconcile(db, dentist, es).slots, dentist,
                          EditSettings.DayOf(e), EditSettings.TimeOf(e))
  {
    EditSettings.ReconcileOwned(db, dentist, es, id);
  }

  /** A slot the dentist settings page inserted can be booked with the day
      and the trimmed time of the entry that created it. */
  lemma NewSlotBookable(db: Database, dentist: int, es: seq<EditSettings.SlotEntry>, k: int)
    requires IdsBelow(db.schedules.Keys, db.nextScheduleId)
    requires 0 <= k < |EditSettings.NewSlots(es)|
    ensures var e := EditSettings.NewSlots(es)[k];
      db.nextScheduleId + k in MatchingSlots(EditSettings.Reconcile(db, dentist, es).slots, dentist,
                                             EditSettings.DayOf(e), EditSettings.TimeOf(e))
  {
    EditSettings.ReconcileNewSlot(db, dentist, es, k);
  }

  /** The column values the booking inserts (and snapshots): `emergency`
      is `$emergency == True ? 1 : 0`, the type is 2 (family) or 1 (normal),
      the status "Pending". */
  function Booking(patient: int, dentist: int, slot: int, req: BookingRequest): AppointmentValues {
    AppointmentValues(
      patient, dentist, slot,
      Some(if JsonTruthy(req.emergency) then 1 else 0),
      Some(if JsonTruthy(req.familyBooking) then 2 else 1),
      req.date, Some("Pending"), req.message, req.serviceId)
  }

  /** The stored row for inserted values: `appointment_date` takes its
      CURRENT_TIMESTAMP default and `deleted_on` its NULL default. */
  function Inserted(v: AppointmentValues, now: Timestamp): AppointmentRow {
    AppointmentRow(now, v.emergency, v.userSetDate, v.status, v.message, None,
                   v.patientId, v.dentistId, v.scheduleId, v.appointmentTypeId, v.serviceId)
  }

  /** The columns of a row that an insert sets explicitly. */
  function ValuesOf(row: AppointmentRow): AppointmentValues {
    AppointmentValues(row.patientId, row.dentistId, row.scheduleId, row.emergency,
                      row.appointmentTypeId, row.userSetDate, row.status, row.message, row.serviceId)
  }

  /** The history row written beside a booking. */
  function CreateLog(v: AppointmentValues, appointment: int, now: Timestamp): AppointmentLogRow {
    AppointmentLogRow(now, "PATIENT", Some("create"), Some("Created a new appointment request."),
                      Some(Created(v)), Some(appointment))
  }

  /** The `create` snapshot holds exactly the values of the inserted row, and
      a new booking is neither soft-deleted nor anything but "Pending", with
      a 0/1 emergency flag and a 1/2 appointment type. */
  lemma SnapshotMatchesRow(patient: int, dentist: int, slot: int, req: BookingRequest, now: Timestamp)
    ensures var v := Booking(patient, dentist, slot, req);
      var row := Inserted(v, now);
      && CreateLog(v, 0, now).snapshot == Some(Created(ValuesOf(row)))
      && row.deletedOn.None? && row.status == Some("Pending")
      && row.patientId == patient && row.scheduleId == slot
      && (row.emergency == Some(1) <==> JsonTruthy(req.emergency))
      && (row.emergency == Some(0) <==> !JsonTruthy(req.emergency))
      && (row.appointmentTypeId == Some(2) <==> JsonTruthy(req.familyBooking))
      && (row.appointmentTypeId == Some(1) <==> !JsonTruthy(req.familyBooking))
  {
  }

  /** `addAppointment`: resolve the slot, insert the appointment, then its
      history row, then log. */
  method AddAppointment(conn: Connection, callerId: int, now: Timestamp, req: BookingRequest) returns (res: Response<()>)
    requires conn.Valid()
    modifies conn
    ensures conn.Valid()
    ensures res.Fail? ==> conn.State() == old(conn.State()) && conn.activity == old(conn.activity)
    ensures !HasRequiredFields(req) ==>
      res == Fail(BadRequest("Missing required fields: patientID, dentistID, day, time"))
    ensures HasRequiredFields(req) ==>
      var dentist := req.dentistId.value;
      var slots := MatchingSlots(old(conn.schedules), dentist, req.day.value, req.time.value);
      && (slots == {} ==> res == Fail(BadRequest("No schedule found for the selected dentist, day, and time")))
      && (slots != {} ==>
            var id := old(conn.nextAppointmentId);
            && res == Ok(())
            && id !in old(conn.appointments) && id in conn.appointments
            && conn.appointments[id].scheduleId in slots
            && conn.schedules == old(conn.schedules)
            && var v := Booking(callerId, dentist, conn.appointments[id].scheduleId, req);
            && conn.State() == old(conn.State()).(
                 appointments := old(conn.appointments)[id := Inserted(v, now)],
                 appointmentLogs := old(conn.appointmentLogs)[old(conn.nextLogId) := CreateLog(v, id, now)],
                 nextAppointmentId := id + 1,
                 nextLogId := old(conn.nextLogId) + 1)
            && conn.activity == old(conn.activity) + [Activity("RECORD_CREATED", Record(id))])
  {
    if !HasRequiredFields(req) {
      return Fail(BadRequest("Missing required fields: patientID, dentistID, day, time"));
    }
    var dentistId, day, time := req.dentistId.value, req.day.value, req.time.value;
    var slots := MatchingSlots(conn.schedules, dentistId, day, time);
    if slots == {} {
      return Fail(BadRequest("No schedule found for the selected dentist, day, and time"));
    }
    if forall s :: s !in slots {
      assert false;   // slots != {}
    }
    // fetchAssociative returns some matching row; SQL gives no order
    var scheduleId :| scheduleId in slots;

    var v := Booking(callerId, dentistId, scheduleId, req);
    var appointmentId := conn.InsertAppointment(Inserted(v, now));
    var _ := conn.InsertLog(CreateLog(v, appointmentId, now));
    conn.Log(Activity("RECORD_CREATED", Record(appointmentId)));
    res := Ok(());
  }
}

=== FILE: user_entity.dfy ===
/**
 * The `User` entity: its column fields, the role list every user is
 * granted, and the two association collections that keep their inverse
 * sides in step. `UserRole` and `DentistService` appear only with the
 * members `User` calls on them.
 */
module UserEntity {
  import opened Php

  /** The role every user holds, whatever is stored. */
  const RoleUser := "ROLE_USER"

  /** `ArrayCollection::removeElement`: drops the first occurrence, if any. */
  function RemoveFirst<T(==)>(s: seq<T>, x: T): (r: seq<T>)
    ensures x !in s ==> r == s
    ensures x in s ==> |r| == |s| - 1 && multiset(r) == multiset(s) - multiset{x}
    ensures NoDuplicates(s) ==> NoDuplicates(r) && x !in r
    ensures forall y :: y in r ==> y in s
  {
    if s == [] then []
    else
      SplitHead(s);
      if s[0] == x then s[1..]
      else
        var rest := RemoveFirst(s[1..], x);
        ConsNoDuplicates(s[0], rest);
        [s[0]] + rest
  }

  /** `removeElement` cuts out exactly the first occurrence and keeps the
      other elements in their order. */
  lemma RemoveFirstCutsFirst<T>(s: seq<T>, x: T)
    requires x in s
    ensures RemoveFirst(s, x) == s[..FirstIndex(s, x)] + s[FirstIndex(s, x) + 1..]
  {
    RemoveFirstAt(s, x, FirstIndex(s, x));
  }

  /** Removing `x` cuts out index `i` when `i` holds the first `x`. */
  lemma {:induction false} RemoveFirstAt<T>(s: seq<T>, x: T, i: int)
    requires 0 <= i < |s| && s[i] == x && x !in s[..i]
    ensures RemoveFirst(s, x) == s[..i] + s[i + 1..]
    decreases |s|
  {
    if i > 0 {
      var t := s[1..];
      assert s[..i][0] == s[0];
      assert t[..i - 1] == s[1..i];
      RemoveFirstAt(t, x, i - 1);
      CutBehindHead(s[0], t, i - 1);
      assert s == [s[0]] + t;
    }
  }

  /** Cutting index `j` out of a tail is cutting index `j + 1` out of the
      whole list. */
  lemma CutBehindHead<T>(a: T, t: seq<T>, j: int)
    requires 0 <= j < |t|
    ensures [a] + (t[..j] + t[j + 1..]) == ([a] + t)[..j + 1] + ([a] + t)[j + 2..]
  {
    assert ([a] + t)[..j + 1] == [a] + t[..j];
    assert ([a] + t)[j + 2..] == t[j + 1..];
  }

  /** A non-empty list is its head before its tail, and a duplicate-free
      one does not repeat its head in a duplicate-free tail. */
  lemma SplitHead<T>(s: seq<T>)
    requires s != []
    ensures s == [s[0]] + s[1..]
    ensures NoDuplicates(s) ==> s[0] !in s[1..] && NoDuplicates(s[1..])
  {
    if NoDuplicates(s) {
      forall i, j | 0 <= i < j < |s[1..]| ensures s[1..][i] != s[1..][j] {
        assert s[1..][i] == s[i + 1] && s[1..][j] == s[j + 1];
      }
    }
  }

  /** Putting a new element in front of a duplicate-free list keeps it
      duplicate-free. */
  lemma ConsNoDuplicates<T>(a: T, s: seq<T>)
    ensures a !in s && NoDuplicates(s) ==> NoDuplicates([a] + s)
  {
    if a in s || !NoDuplicates(s) {
      return;
    }
    forall i, j | 0 <= i < j < |[a] + s| ensures ([a] + s)[i] != ([a] + s)[j] {
      if i > 0 {
        assert ([a] + s)[i] == s[i - 1];
      }
      assert ([a] + s)[j] == s[j - 1];
    }
  }

  /** The inverse side of the user-role association, reduced to its member
      list. */
  class UserRole {
    var users: seq<User>

    constructor ()
      ensures users == []
    {
      users := [];
    }

    /** `addUser`: add if absent. */
    method AddUser(u: User)
      modifies this
      ensures users == if u in old(users) then old(users) else old(users) + [u]
    {
      if u !in users {
        users := users + [u];
      }
    }

    /** `removeUser`: remove if present. */
    method RemoveUser(u: User)
      modifies this
      ensures users == RemoveFirst(old(users), u)
    {
      users := RemoveFirst(users, u);
    }
  }

  /** The owning side of a user-service link, reduced to its user. */
  class DentistService {
    var user: User?

    constructor ()
      ensures user == null
    {
      user := null;
    }

    method SetUser(u: User?)
      modifies this
      ensures user == u
    {
      user := u;
    }
  }

  /** The column fields of a user, as one value. */
  datatype UserColumns = UserColumns(
    email: Option<string>,
    username: Option<string>,
    password: Option<string>,
    firstName: Option<string>,
    lastName: Option<string>,
    createdAt: Option<int>,
    roles: seq<string>,
    disable: Option<bool>)

  class User {
    var email: Option<string>
    var username: Option<string>
    var password: Option<string>
    var firstName: Option<string>
    var lastName: Option<string>
    var createdAt: Option<int>
    var roles: seq<string>
    var userRoles: seq<UserRole>
    var dentistServices: seq<DentistService>
    var disable: Option<bool>

    function Columns(): UserColumns
      reads this
    {
      UserColumns(email, username, password, firstName, lastName, createdAt, roles, disable)
    }

    /** Both collections hold each element at most once. */
    predicate Valid()
      reads this
    {
      NoDuplicates(userRoles) && NoDuplicates(dentistServices)
    }

    /** A new user: every column null, no stored roles, empty collections. */
    constructor ()
      ensures Valid()
      ensures Columns() == UserColumns(None, None, None, None, None, None, [], None)
      ensures userRoles == [] && dentistServices == []
      ensures GetUserIdentifier() == "" && GetPassword() == "" && GetRoles() == [RoleUser]
    {
      email, username, password, firstName, lastName, createdAt := None, None, None, None, None, None;
      roles, disable := [], None;
      userRoles, dentistServices := [], [];
    }

    /** `getUserIdentifier`: the e-mail address, "" when unset. */
    function GetUserIdentifier(): (id: string)
      reads this
      ensures email.Some? ==> id == email.value
      ensures email.None? ==> id == ""
    {
      email.GetOr("")
    }

    /** `getRoles`: the stored roles plus ROLE_USER, duplicates removed. */
    function GetRoles(): (r: seq<string>)
      reads this
      ensures RoleUser in r
      ensures forall x :: x in roles ==> x in r
      ensures forall x :: x in r ==> x in roles || x == RoleUser
      ensures NoDuplicates(r)
    {
      Dedup(roles + [RoleUser])
    }

    /** `getPassword`: the hash, "" when unset. */
    function GetPassword(): (p: string)
      reads this
      ensures password.Some? ==> p == password.value
      ensures password.None? ==> p == ""
    {
      password.GetOr("")
    }

    method SetEmail(e: string)
      modifies this
      ensures Columns() == old(Columns()).(email := Some(e))
      ensures userRoles == old(userRoles) && dentistServices == old(dentistServices)
      ensures GetUserIdentifier() == e
    {
      email := Some(e);
    }

    method SetUsername(name: string)
      modifies this
      ensures Columns() == old(Columns()).(username := Some(name))
      ensures userRoles == old(userRoles) && dentistServices == old(dentistServices)
    {
      username := Some(name);
    }

    /** `setRoles`: the granted roles become `rs` plus ROLE_USER. */
    method SetRoles(rs: seq<string>)
      modifies this
      ensures Columns() == old(Columns()).(roles := rs)
      ensures userRoles == old(userRoles) && dentistServices == old(dentistServices)
      ensures forall x :: x in GetRoles() <==> x in rs || x == RoleUser
    {
      roles := rs;
    }

    method SetPassword(p: string)
      modifies this
      ensures Columns() == old(Columns()).(password := Some(p))
      ensures userRoles == old(userRoles) && dentistServices == old(dentistServices)
      ensures GetPassword() == p
    {
      password := Some(p);
    }

    method SetFirstName(name: Option<string>)
      modifies this
      ensures Columns() == old(Columns()).(firstName := name)
      ensures userRoles == old(userRoles) && dentistServices == old(dentistServices)
    {
      firstName := name;
    }

    method SetLastName(name: Option<string>)
      modifies this
      ensures Columns() == old(Columns()).(lastName := name)
      ensures userRoles == old(userRoles) && dentistServices == old(dentistServices)
    {
      lastName := name;
    }

    method SetCreatedAt(at: Option<int>)
      modifies this
      ensures Columns() == old(Columns()).(createdAt := at)
      ensures userRoles == old(userRoles) && dentistServices == old(dentistServices)
    {
      createdAt := at;
    }

    method SetDisable(d: Option<bool>)
      modifies this
      ensures Columns() == old(Columns()).(disable := d)
      ensures userRoles == old(userRoles) && dentistServices == old(dentistServices)
    {
      disable := d;
    }

    /** `addUserRole`: add if absent, and then register this user on the
        role's side. */
    method AddUserRole(ur: UserRole)
      requires Valid()
      modifies this, ur
      ensures Valid()
      ensures Columns() == old(Columns()) && dentistServices == old(dentistServices)
      ensures ur in userRoles
      ensures ur in old(userRoles) ==> userRoles == old(userRoles) && ur.users == old(ur.users)
      ensures ur !in old(userRoles) ==>
        && userRoles == old(userRoles) + [ur]
        && ur.users == (if this in old(ur.users) then old(ur.users) else old(ur.users) + [this])
    {
      if ur !in userRoles {
        userRoles := userRoles + [ur];
        ur.AddUser(this);
      }
    }

    /** `removeUserRole`: remove if present, and then drop this user from the
        role's side. */
    method RemoveUserRole(ur: UserRole)
      requires Valid()
      modifies this, ur
      ensures Valid()
      ensures Columns() == old(Columns()) && dentistServices == old(dentistServices)
      ensures ur !in userRoles
      ensures userRoles == RemoveFirst(old(userRoles), ur)
      ensures ur in old(userRoles) ==> ur.users == RemoveFirst(old(ur.users), this)
      ensures ur !in old(userRoles) ==> ur.users == old(ur.users)
    {
      if ur in userRoles {
        userRoles := RemoveFirst(userRoles, ur);
        ur.RemoveUser(this);
      }
    }

    /** `addDentistService`: add if absent, and then point the link at this
        user. */
    method AddDentistService(ds: DentistService)
      requires Valid()
      modifies this, ds
      ensures Valid()
      ensures Columns() == old(Columns()) && userRoles == old(userRoles)
      ensures ds in dentistServices
      ensures ds in old(dentistServices) ==> dentistServices == old(dentistServices) && ds.user == old(ds.user)
      ensures ds !in old(dentistServices) ==> dentistServices == old(dentistServices) + [ds] && ds.user == this
    {
      if ds !in dentistServices {
        dentistServices := dentistServices + [ds];
        ds.SetUser(this);
      }
    }

    /** `removeDentistService`: remove if present, and then clear the link's
        user, but only while it still points at this user. */
    method RemoveDentistService(ds: DentistService)
      requires Valid()
      modifies this, ds
      ensures Valid()
      ensures Columns() == old(Columns()) && userRoles == old(userRoles)
      ensures ds !in dentistServices
      ensures dentistServices == RemoveFirst(old(dentistServices), ds)
      ensures ds in old(dentistServices) && old(ds.user) == this ==> ds.user == null
      ensures !(ds in old(dentistServices) && old(ds.user) == this) ==> ds.user == old(ds.user)
    {
      if ds in dentistServices {
        dentistServices := RemoveFirst(dentistServices, ds);
        if ds.user == this {
          ds.SetUser(null);
        }
      }
    }
  }

  /** Adding a service link and removing it again restores the collection
      and, for a link that had no user, the link itself. */
  method AddThenRemoveService(u: User, ds: DentistService)
    requires u.Valid() && ds !in u.dentistServices && ds.user == null
    modifies u, ds
    ensures u.Valid()
    ensures u.dentistServices == old(u.dentistServices) && ds.user == null
  {
    u.AddDentistService(ds);
    RemoveAppended(old(u.dentistServices), ds);
    u.RemoveDentistService(ds);
  }

  /** Removing the element just appended to a list that did not hold it
      gives the list back. */
  lemma {:induction false} RemoveAppended<T>(s: seq<T>, x: T)
    requires x !in s
    ensures RemoveFirst(s + [x], x) == s
  {
    if s != [] {
      assert (s + [x])[1..] == s[1..] + [x];
      RemoveAppended(s[1..], x);
      assert s == [s[0]] + s[1..];
    }
  }
}
